=== FILE: README.md ===
# Login and registration pages of an OTP authentication front end

This project models the two stateful pages of a React front end for a
password-plus-one-time-code authentication service:

- `src/pages/AuthPage.jsx`, the login page. It holds a form state (username,
  password, confirmation, contact, OTP delivery method, code, step, temporary
  token, banner, loading flag, per-field validation messages), a field
  validator, an input handler, four submit predicates and four submit handlers.
  The form's single `onSubmit` picks the handler after the current step
  (`login`, `mfa`, `otp`).
- `src/pages/SignupPage.jsx`, the registration page, with its own form state,
  validator, input handler, two submit predicates and submit handler.

Every React event is a pure function from the state the handler's closure
sees to the state after the handler has completed. All validation performed
inside one event sees the state from before the event, as React's batched
`setState` does. Server calls become an abstract `Reply`: the success body or
the error body the caller supplies. A handler returns the request it issued,
the token it stored and the route it navigated to. The regular expressions of
the pages are written as a small regular-expression datatype with a
denotational `Matches`, and each one is proved equal to a plain-words
predicate (an email address, a phone number, a username, a six-digit code).

Modules: `Chars` (JavaScript whitespace and `trim`), `Regex` (the pattern
language), `Patterns` (the page patterns and their meaning), `Rules` (the
per-field rules, shared by the pages where their code agrees), `Api` (server
replies), `AuthPage` (the login page's handlers), `AuthFlow` (the login page
as an event machine, and properties of event sequences) and `SignupPage`.

Behaviours of the code a reader may not expect:

- There is no `success` step. A verified code stores the token and stays on
  the code step.
- The login step's form and button both call `handleSendOtp`, whose gate is
  `isFormValid`. That gate looks at no validation message, so a one-letter
  username and a contact that is not an email address still send
  `request-otp`.
- `handleLogin` is the only handler that can leave the login step, and no
  control calls it. The "change method" button also sets `mfa`, but it is
  rendered only in the code step. From the page's initial state the method
  and code steps are therefore never reached
  (`AuthFlow.OnlyLoginStepIsReachable`).
  `handleLogin` is still modelled on its own, with the MFA path it would open.
- "Change method" returns to the method step and keeps the code typed so far.
- Typed code input containing a non-digit is dropped as a whole, not stripped
  of the non-digit. Its validation message is still computed from the dropped
  text.
- `handleSendOtp` reads the server's `message` field; the other handlers read
  `error`.

## Model

| member | source | states |
|---|---|---|
| Chars.Trim | src/pages/AuthPage.jsx:121-125 | `trim()` returns a contiguous slice of its input, preceded and followed only by whitespace, and neither starting nor ending with whitespace |
| Chars.TrimEmptyIffAllSpace | src/pages/AuthPage.jsx:122 | `s.trim().length > 0` holds exactly when `s` has a non-whitespace character |
| Chars.TrimKeepsNonSpace | src/pages/AuthPage.jsx:125 | a string holding any non-whitespace character does not trim to empty |
| Chars.TrimWordChars | src/pages/SignupPage.jsx:125 | trimming a string of letters, digits and underscores leaves it unchanged |
| Regex.RepClassMeaning | src/pages/AuthPage.jsx:31-32 | a bounded repetition `[k]{lo,hi}` accepts exactly the strings of `lo` to `hi` characters, all in `k` |
| Regex.PlusClassMeaning | src/pages/AuthPage.jsx:29 | `[k]+` accepts exactly the non-empty strings of characters in `k` |
| Patterns.EmailPatternMeaning | src/pages/AuthPage.jsx:29 | the email regex accepts exactly the strings with one `@` after at least one character, no whitespace, and a `.` strictly inside the part after the `@` |
| Patterns.PhonePatternMeaning | src/pages/AuthPage.jsx:30 | the phone regex accepts exactly an optional `+` followed by 2 to 15 ASCII digits, the first of them not `0` |
| Patterns.UsernamePatternMeaning | src/pages/SignupPage.jsx:30 | the username regex accepts exactly 3 to 20 letters, digits or underscores |
| Patterns.OtpPatternMeaning | src/pages/AuthPage.jsx:32 | the OTP regex accepts exactly six ASCII digits |
| Patterns.DigitsPatternMeaning | src/pages/AuthPage.jsx:113 | the typed-code filter accepts exactly the all-digit strings, the empty string included |
| Patterns.EmailNotBlank | src/pages/SignupPage.jsx:117-126 | an email address is never blank after trimming |
| Patterns.PhoneNotBlank | src/pages/SignupPage.jsx:119-127 | a phone number is never blank after trimming |
| Rules.Text | src/pages/AuthPage.jsx:35-91 | a field's stored message text is empty exactly when the field is not flagged |
| Rules.AuthUsernameRule | src/pages/AuthPage.jsx:39-47 | the login page flags a non-empty username as too short below 3 characters and otherwise as badly formed exactly when it is not a username |
| Rules.SignupUsernameRule | src/pages/SignupPage.jsx:37-47 | the registration page flags a username as too short below 3, too long above 20, and between those exactly when it has a character outside letters, digits and `_` |
| Rules.UsernameRulesAgree | src/pages/SignupPage.jsx:37-47 | both pages accept the same usernames; a 21-character name gets a format message on one page and a length message on the other |
| Rules.PasswordRule | src/pages/AuthPage.jsx:49-55 | a password is flagged exactly when it has 1 to 5 characters |
| Rules.ConfirmRule | src/pages/AuthPage.jsx:57-63 | a confirmation is flagged exactly when it is non-empty and differs from the password it is compared with |
| Rules.EmailRule | src/pages/SignupPage.jsx:49-55 | an email is flagged exactly when it is non-empty and not an email address |
| Rules.PhoneRule | src/pages/SignupPage.jsx:57-63 | a phone is flagged exactly when it is non-empty and not a phone number |
| Rules.OtpRule | src/pages/AuthPage.jsx:75-81 | a code is flagged exactly when it is non-empty and not six digits |
| Api.ServerText | src/pages/AuthPage.jsx:207-210 | the banner shows the server's text when it is present and non-empty, and otherwise the handler's own fallback |
| AuthPage.ContactRule | src/pages/AuthPage.jsx:65-73 | the contact is checked as an email in email mode and as a phone number in SMS and voice mode |
| AuthPage.Validate | src/pages/AuthPage.jsx:35-91 | `validateField` applies each field's rule, the confirmation against the password and the contact under the current method |
| AuthPage.EmptyIsNeverFlagged | src/pages/AuthPage.jsx:35-91 | no field is ever flagged while empty |
| AuthPage.AcceptsOtpInput | src/pages/AuthPage.jsx:112-115 | typed code input is stored exactly when it has at most 6 characters, all digits |
| AuthPage.InputChange | src/pages/AuthPage.jsx:93-119 | an input event stores the value (a code only when it passes the filter), sets the field's message from what was typed, re-checks a non-empty confirmation against the replaced password on a password change, and changes nothing else |
| AuthPage.InputChangeIntended | src/pages/AuthPage.jsx:100-103 | the corrected input event re-checks the confirmation against the new password, differs from `InputChange` only in that message and only on a password change over a non-empty confirmation (on every other event it equals `InputChange`), and keeps the confirmation's message current |
| AuthPage.PickMethod | src/pages/AuthPage.jsx:345-349 | choosing a delivery method sets it and clears the contact and its message, and nothing else (the method step's select at lines 413-417 does the same) |
| AuthPage.BackToMethod | src/pages/AuthPage.jsx:515-521 | "change method" returns to the method step and changes nothing else, the typed code included |
| AuthPage.IsFormValid | src/pages/AuthPage.jsx:121-125 | `isFormValid`, the login step's only reachable submit gate, holds exactly when the username and contact each have a non-whitespace character, the password has at least 6 characters and the confirmation equals it; it reads no validation message |
| AuthPage.IsLoginFormValid | src/pages/AuthPage.jsx:127-138 | `isLoginFormValid()` implies `isFormValid` and that no login field carries a message |
| AuthPage.IsMfaFormValid | src/pages/AuthPage.jsx:140-145 | `isMfaFormValid()` holds exactly when the contact has a non-whitespace character and no message; while the message is current, exactly when the contact is an email address in email mode and a phone number otherwise (see also `AuthFlow.MfaGateMeansValidContact`) |
| AuthPage.IsOtpValid | src/pages/AuthPage.jsx:147-149 | `isOtpValid()` holds exactly when the code is six digits |
| AuthPage.RequestOtpPayload | src/pages/AuthPage.jsx:162-167 | the `request-otp` payload carries username, password and method, and the contact under `email` in email mode and under `phone` otherwise |
| AuthPage.RequestOtpPayloadRoundTrip | src/pages/AuthPage.jsx:162-167 | the contact and method can be read back from the payload |
| AuthPage.HandleSendOtp | src/pages/AuthPage.jsx:151-181 | a request is sent exactly when `isFormValid` holds; otherwise the fixed banner is set; the server's `message` or the fallback is shown on failure; the step and the form never change |
| AuthPage.HandleLogin | src/pages/AuthPage.jsx:183-214 | a login request is sent exactly when `isLoginFormValid()` holds; a reply asking for a second factor moves to the method step with its temporary token; any other success stores the token; the temporary token changes only on a second-factor reply |
| AuthPage.HandleSendOtpMfa | src/pages/AuthPage.jsx:216-246 | `send-otp` carries the temporary token, method and contact, is sent exactly when `isMfaFormValid()` holds, and moves to the code step on success only |
| AuthPage.HandleVerifyOtp | src/pages/AuthPage.jsx:248-274 | `verify-otp` is sent exactly when the code is six digits; a success stores the server's token; a failure stores nothing |
| AuthFlow.Dispatch | src/pages/AuthPage.jsx:528-533 | only a submit sends a request, with the gate of the current step; steps only move login to method to code and code back to method; a token is stored only from the code step; no rendered event changes the temporary token |
| AuthFlow.LoginStepIsAbsorbing | src/pages/AuthPage.jsx:528 | from the login step, every sequence of events on rendered controls stays in the login step |
| AuthFlow.OnlyLoginStepIsReachable | src/pages/AuthPage.jsx:15 | from the initial state, the method and code steps are never reached |
| AuthFlow.HandleLoginStepMove | src/pages/AuthPage.jsx:199-202 | `handleLogin` either keeps the step or moves to the method step, and leaves the login step only on a reply asking for a second factor |
| AuthFlow.RunKeepsOtpShape | src/pages/AuthPage.jsx:111-116 | every sequence of events keeps the stored code at most six digits |
| AuthFlow.StoredOtpIsShort | src/pages/AuthPage.jsx:111-116 | from the initial state the stored code is always at most six digits |
| AuthFlow.RunKeepsMessagesUpToDate | src/pages/AuthPage.jsx:93-119 | every sequence of events keeps the username, password and contact messages equal to what their current values call for |
| AuthFlow.MessagesStayCurrent | src/pages/AuthPage.jsx:20-26 | from the state the page mounts with, the username, password and contact messages are always the ones their current values call for |
| AuthFlow.DispatchKeepsMessagesUpToDate | src/pages/AuthPage.jsx:528 | one event of any kind keeps those messages current |
| AuthFlow.InputKeepsMessagesUpToDate | src/pages/AuthPage.jsx:93-119 | an input event keeps those messages current |
| AuthFlow.PickMethodKeepsMessagesUpToDate | src/pages/AuthPage.jsx:345-349 | changing the method keeps the contact's message current by clearing both |
| AuthFlow.SubmitKeepsForm | src/pages/AuthPage.jsx:151-274 | no submit handler changes an input value or a validation message |
| AuthFlow.StaleConfirmMessage | src/pages/AuthPage.jsx:98-104 | with a valid username and email address typed, then a password `p` of 7 or more characters, a confirmation of `p` without its last character, and the password cut to that same string, every field is valid and `isFormValid` holds, but the mismatch message stays and `isLoginFormValid()` is false; the same events with the corrected handler make it true |
| AuthFlow.IntendedInputKeepsMessagesUpToDate | src/pages/AuthPage.jsx:93-119 | the corrected input event keeps the username, password and contact messages current, as the page's own does |
| AuthFlow.IntendedInputKeepsConfirmUpToDate | src/pages/AuthPage.jsx:100-103 | with the corrected input handler, the confirmation's message stays current through every input sequence |
| AuthFlow.SendOtpIgnoresMessages | src/pages/AuthPage.jsx:121-125 | a username flagged as too short and a contact flagged as no email address (such as "a" and "x") still send `request-otp` |
| AuthFlow.FilledLoginFormSendsRequestOtp | src/pages/AuthPage.jsx:151-168 | filling the login form in email mode and submitting sends one `request-otp` with the contact under `email`, and stays on the login step |
| AuthFlow.ContactMessageMeaning | src/pages/AuthPage.jsx:65-73 | a current contact message is clear on a non-blank contact exactly when the contact is valid for the method |
| AuthFlow.LoginGateMeansValidForm | src/pages/AuthPage.jsx:127-138 | with current messages, `isLoginFormValid()` holds exactly when the username, password, confirmation and contact are valid in plain words |
| AuthFlow.MfaGateMeansValidContact | src/pages/AuthPage.jsx:140-145 | with a current contact message, `isMfaFormValid()` holds exactly when the contact is valid for the method |
| AuthFlow.MfaFlowCarriesTempToken | src/pages/AuthPage.jsx:199-233 | a second-factor login reply, then SMS, a phone number and a submit, sends `send-otp` with that reply's temporary token and moves to the code step |
| AuthFlow.OtpInputRejectsWholeValue | src/pages/AuthPage.jsx:111-118 | typing "12a45" over "12" keeps "12" and flags the code |
| SignupPage.Validate | src/pages/SignupPage.jsx:33-89 | `validateField` applies each field's rule, the confirmation against the password |
| SignupPage.EmptyIsNeverFlagged | src/pages/SignupPage.jsx:33-89 | no field is ever flagged while empty |
| SignupPage.InputChange | src/pages/SignupPage.jsx:91-114 | an input event stores the value, sets the field's message, re-checks a non-empty confirmation against the replaced password on a password change, and changes nothing else |
| SignupPage.InputChangeIntended | src/pages/SignupPage.jsx:104-107 | the corrected input event re-checks against the new password, differs from `InputChange` only in that message and only on a password change over a non-empty confirmation (on every other event it equals `InputChange`), and keeps the confirmation's message current |
| SignupPage.IsFormValid | src/pages/SignupPage.jsx:116-121 | `isFormValid`, the button's enabling condition, holds exactly when the username, email and phone each have a non-whitespace character, the password has at least 6 characters and the confirmation equals it |
| SignupPage.IsFormValidWithValidation | src/pages/SignupPage.jsx:123-132 | the submit gate implies the button's `isFormValid`, a valid email and phone, a matching password of 6 or more characters, and no message on any field |
| SignupPage.GateMeansValidForm | src/pages/SignupPage.jsx:123-132 | with current messages, the gate holds exactly when the username, email, phone, password and confirmation are valid in plain words |
| SignupPage.HandleSignup | src/pages/SignupPage.jsx:134-160 | `register` is sent exactly when the gate holds, without the confirmation; success navigates to the login page; failure shows the server's `error` or the fallback; no input changes |
| SignupPage.InputsKeepMessagesUpToDate | src/pages/SignupPage.jsx:91-114 | every input sequence keeps the username, email, phone and password messages current |
| SignupPage.InputKeepsMessagesUpToDate | src/pages/SignupPage.jsx:91-114 | one input event keeps those messages current |
| SignupPage.StaleConfirmBlocksSignup | src/pages/SignupPage.jsx:102-108 | with a valid username, email address and phone number typed, then a password `p` of 7 or more characters, a confirmation of `p` without its last character, and the password cut to that same string, `isFormValid` holds and the button is enabled, but the mismatch message stays and `handleSignup` sends nothing; the same events with the corrected handler send `register` |
| SignupPage.IntendedInputKeepsMessagesUpToDate | src/pages/SignupPage.jsx:91-114 | the corrected input event keeps the username, email, phone and password messages current, as the page's own does |
| SignupPage.MessagesStayCurrent | src/pages/SignupPage.jsx:8-23 | from the state the page mounts with, every input sequence keeps the username, email, phone and password messages current |
| SignupPage.IntendedInputKeepsConfirmUpToDate | src/pages/SignupPage.jsx:104-107 | with the corrected input handler, the confirmation's message stays current through every input sequence |

## Left out

- String lengths are counted in characters. JavaScript counts UTF-16 code units, so a character outside the Basic Multilingual Plane counts twice there.
- `Chars.IsSpace` lists the Unicode space separators as of Unicode 15. A later Unicode version could change `\s` and `trim()`.
- `alert`, `localStorage.setItem`, `navigate` and `axios.post` are not executed. A handler instead returns the request, the stored token and the route. The server's reply is a parameter.
- Asynchronous interleaving is not modelled: each handler runs to completion. The `loading` flag is modelled only as the value the handler leaves behind, not as a guard against a second submit.
- A submit is treated as possible in every state. The page disables the submit buttons while their gate fails, so the event sequences modelled are a superset of the real ones, and the sequence properties hold a fortiori.
- The browser's own form checks are not modelled. The registration page's submit button has no `onClick`, so before `onSubmit` runs `handleSignup`, the browser enforces `required` on every input (`src/components/InputField.jsx:11`) and the email input's `type="email"` (`src/pages/SignupPage.jsx:192`). The login page's buttons call their handlers from `onClick`, which calls `preventDefault()` and so skips those checks. The modelled submit ignores these checks, so the modelled event sequences are a superset of the real ones.
- Messages are told apart by their `FieldError` kind. `Rules.Text` gives each kind its French text, but that the ten texts differ from one another is not stated.
- Server fields that are not strings, and a missing `tempToken` or `token` in a success body, are not modelled. The reply's fields are strings.
- The `maxLength={6}` that the code input is given at `src/pages/AuthPage.jsx:486` is never applied: `InputField` (`src/components/InputField.jsx:3`) takes no `maxLength` prop, so typed text of any length reaches `handleInputChange`. `AuthPage.InputChange` therefore takes a value of any length, and only the handler's own filter keeps the stored code short.
- The JSX markup, `App.jsx`, `VerifyOtpPage.jsx`, `SuccessPage.jsx` and `services/api.js` are not part of this model.

## Findings

| source | as written | input that shows it | evidently intended | confidence | as-written member | corrected member |
|---|---|---|---|---|---|---|
| src/pages/AuthPage.jsx:98-104 | on a password change, a non-empty confirmation is re-checked against the password from before the change | a valid username and email address, then password "abcdefg", confirmation "abcdef", then password "abcdef": every field is valid and the two match, but the mismatch message stays and `isLoginFormValid()` is false; with the corrected handler it is true | re-check the confirmation against the new password | not executed | AuthFlow.StaleConfirmMessage | AuthFlow.IntendedInputKeepsConfirmUpToDate |
| src/pages/SignupPage.jsx:102-108 | the same stale re-check on the registration page | a valid username, email address and phone number, then the same three password inputs: the button is enabled, but the mismatch message stays and `handleSignup` sends nothing; with the corrected handler it sends `register` | re-check the confirmation against the new password | not executed | SignupPage.StaleConfirmBlocksSignup | SignupPage.IntendedInputKeepsConfirmUpToDate |

`AuthPage.InputChange` and `SignupPage.InputChange` model the code as written. `AuthFlow.Dispatch` uses `InputChange`, because it models the page as it behaves. `AuthPage.InputChangeIntended` and `SignupPage.InputChangeIntended` are the corrected handlers.

=== FILE: api.dfy ===
/** The authentication server as the pages see it. Every `axios.post` is
    replaced by an abstract reply that the caller supplies: either the
    response body, or the body of an error response. */
module Api {

  datatype Option<T> = None | Some(value: T)

  /** The fields of a success body that some page reads. */
  datatype ResponseData = ResponseData(mfaRequired: bool, tempToken: string, token: string)

  /** The two fields of an error body that the pages read. A failure without
      a response (a network error) has neither. */
  datatype ErrorBody = ErrorBody(error: Option<string>, message: Option<string>)

  datatype Reply = Ok(data: ResponseData) | Err(body: ErrorBody)

  /** `field || fallback` on an optional string: an absent or empty server
      text falls back to the handler's own message. */
  function ServerText(field: Option<string>, fallback: string): (t: string)
    ensures t == fallback || (field.Some? && t == field.value)
    ensures field.Some? && field.value != "" ==> t == field.value
    ensures fallback != "" ==> t != ""
  {
    if field.Some? && field.value != "" then field.value else fallback
  }
}

=== FILE: auth_flow.dfy ===
/** The login page as an event-driven machine: which controls each step
    renders, how the form's `onSubmit` picks its handler, and what holds of
    every sequence of events from the state the page mounts with. */
module AuthFlow {
  import opened Chars
  import opened Patterns
  import opened Rules
  import opened Api
  import opened AuthPage

  datatype Event =
    | Input(field: Field, value: string)   // `onChange` of an input
    | ChooseMethod(m: Method)              // `onChange` of the method select
    | ChangeMethod                         // the "change method" button
    | Submit(reply: Reply)                 // `onSubmit` of the form, with the server's reply

  /** The controls rendered in each step: the login form has the four login
      inputs and the method select, the method form the select and the
      contact, the code form the code input and the "change method" button.
      The form can always be submitted. */
  predicate Available(s: State, ev: Event) {
    match ev
    case Input(f, _) =>
      || (s.step == Login && f != Otp)
      || (s.step == Mfa && f == Contact)
      || (s.step == OtpEntry && f == Otp)
    case ChooseMethod(_) => s.step != OtpEntry
    case ChangeMethod => s.step == OtpEntry
    case Submit(_) => true
  }

  /** The step changes the handlers can make: forward from login to
      method to code, and back from code to method. */
  predicate StepMove(from: Step, to: Step) {
    || from == to
    || (from == Login && to == Mfa)
    || (from == Mfa && to == OtpEntry)
    || (from == OtpEntry && to == Mfa)
  }

  /** One event. The form submits to `handleSendOtp` in the login step, to
      `handleSendOtpMfa` in the method step and to `handleVerifyOtp` in the
      code step. */
  function Dispatch(s: State, ev: Event): (o: Outcome)
    ensures o.request.Some? ==> ev.Submit?
    ensures ev.Submit? && s.step == Login ==> (o.request.Some? <==> IsFormValid(s))
    ensures ev.Submit? && s.step == Mfa ==> (o.request.Some? <==> IsMfaFormValid(s))
    ensures ev.Submit? && s.step == OtpEntry ==> (o.request.Some? <==> IsOtpCode(s.otp))
    ensures StepMove(s.step, o.state.step)
    ensures Available(s, ev) && s.step == Login ==> o.state.step == Login
    ensures o.state.step != s.step ==> ev.ChangeMethod? || (ev.Submit? && ev.reply.Ok? && o.request.Some?)
    ensures o.storedToken.Some? ==> s.step == OtpEntry && ev.Submit? && ev.reply.Ok?
    ensures o.state.tempToken == s.tempToken
  {
    match ev
    case Input(f, v) => Outcome(InputChange(s, f, v), None, None)
    case ChooseMethod(m) => Outcome(PickMethod(s, m), None, None)
    case ChangeMethod => Outcome(BackToMethod(s), None, None)
    case Submit(reply) =>
      match s.step
      case Login => HandleSendOtp(s, reply)
      case Mfa => HandleSendOtpMfa(s, reply)
      case OtpEntry => HandleVerifyOtp(s, reply)
  }

  /** The state after a sequence of events. */
  function Run(s: State, evs: seq<Event>): State
    decreases |evs|
  {
    if evs == [] then s else Run(Dispatch(s, evs[0]).state, evs[1..])
  }

  /** Every event of the sequence uses a control that is on screen when it
      happens. */
  predicate Enabled(s: State, evs: seq<Event>)
    decreases |evs|
  {
    evs == [] || (Available(s, evs[0]) && Enabled(Dispatch(s, evs[0]).state, evs[1..]))
  }

  /** `handleLogin` is the only handler that can leave the login step, and no
      control calls it: from the login step, every sequence of on-screen
      events stays in the login step. */
  lemma {:induction false} LoginStepIsAbsorbing(s: State, evs: seq<Event>)
    requires s.step == Login && Enabled(s, evs)
    ensures Run(s, evs).step == Login
    decreases |evs|
  {
    if evs != [] {
      LoginStepIsAbsorbing(Dispatch(s, evs[0]).state, evs[1..]);
    }
  }

  /** Hence the method and code forms are never shown. */
  lemma {:induction false} OnlyLoginStepIsReachable(evs: seq<Event>)
    requires Enabled(Initial, evs)
    ensures Run(Initial, evs).step == Login
  {
    LoginStepIsAbsorbing(Initial, evs);
  }

  /** `handleLogin` also moves only along the allowed step changes, and
      leaves the login step only for the method step, on a reply that asks
      for a second factor. */
  lemma HandleLoginStepMove(s: State, reply: Reply)
    ensures HandleLogin(s, reply).state.step == s.step || HandleLogin(s, reply).state.step == Mfa
    ensures s.step == Login && HandleLogin(s, reply).state.step != Login ==>
              HandleLogin(s, reply).state.step == Mfa && reply.Ok? && reply.data.mfaRequired
  {
  }

  /** The stored code is at most six digits. */
  predicate OtpShape(s: State) {
    |s.otp| <= 6 && AllDigits(s.otp)
  }

  /** Every sequence of events, whether or not its controls are on screen,
      keeps the stored code at most six digits long. */
  lemma {:induction false} RunKeepsOtpShape(s: State, evs: seq<Event>)
    requires OtpShape(s)
    ensures OtpShape(Run(s, evs))
    decreases |evs|
  {
    if evs != [] {
      DispatchKeepsOtpShape(s, evs[0]);
      RunKeepsOtpShape(Dispatch(s, evs[0]).state, evs[1..]);
    }
  }

  lemma DispatchKeepsOtpShape(s: State, ev: Event)
    requires OtpShape(s)
    ensures OtpShape(Dispatch(s, ev).state)
  {
    match ev
    case Input(f, v) =>
      assert Value(InputChange(s, f, v), Otp) == Dispatch(s, ev).state.otp;
    case ChooseMethod(m) =>
      assert Value(PickMethod(s, m), Otp) == s.otp;
    case ChangeMethod =>
    case Submit(reply) => SubmitKeepsForm(s, reply);
  }

  /** Starting from the empty code, the stored code is always at most six
      digits. */
  lemma {:induction false} StoredOtpIsShort(evs: seq<Event>)
    ensures |Run(Initial, evs).otp| <= 6 && AllDigits(Run(Initial, evs).otp)
  {
    RunKeepsOtpShape(Initial, evs);
  }

  /** The messages of the username, password and contact fields are the ones
      their current values call for (the contact's under the current
      method). */
  predicate MessagesUpToDate(s: State) {
    && s.errors.username == AuthUsernameRule(s.username)
    && s.errors.password == PasswordRule(s.password)
    && s.errors.contact == ContactRule(s.contact, s.otpMethod)
  }

  /** Every sequence of events keeps those messages up to date; changing the
      method clears the contact together with its message. */
  lemma {:induction false} RunKeepsMessagesUpToDate(s: State, evs: seq<Event>)
    requires MessagesUpToDate(s)
    ensures MessagesUpToDate(Run(s, evs))
    decreases |evs|
  {
    if evs != [] {
      DispatchKeepsMessagesUpToDate(s, evs[0]);
      RunKeepsMessagesUpToDate(Dispatch(s, evs[0]).state, evs[1..]);
    }
  }

  /** From the state the page mounts with, the messages are always
      current. */
  lemma {:induction false} MessagesStayCurrent(evs: seq<Event>)
    ensures MessagesUpToDate(Run(Initial, evs))
  {
    RunKeepsMessagesUpToDate(Initial, evs);
  }

  lemma DispatchKeepsMessagesUpToDate(s: State, ev: Event)
    requires MessagesUpToDate(s)
    ensures MessagesUpToDate(Dispatch(s, ev).state)
  {
    match ev
    case Input(f, v) => InputKeepsMessagesUpToDate(s, f, v);
    case ChooseMethod(m) => PickMethodKeepsMessagesUpToDate(s, m);
    case ChangeMethod =>
    case Submit(reply) => SubmitKeepsForm(s, reply);
  }

  /** Submitting changes no input value and no validation message. */
  lemma SubmitKeepsForm(s: State, reply: Reply)
    ensures var r := Dispatch(s, Submit(reply)).state;
            && r.username == s.username && r.password == s.password && r.passwordConfirm == s.passwordConfirm
            && r.contact == s.contact && r.otp == s.otp && r.otpMethod == s.otpMethod && r.errors == s.errors
  {
  }

  lemma InputKeepsMessagesUpToDate(s: State, f: Field, v: string)
    requires MessagesUpToDate(s)
    ensures MessagesUpToDate(InputChange(s, f, v))
  {
    var r := InputChange(s, f, v);
    assert r.errors.username == AuthUsernameRule(r.username) by {
      if f != Username { assert r.errors.Get(Username) == s.errors.Get(Username); }
    }
    assert r.errors.password == PasswordRule(r.password) by {
      if f != Password { assert r.errors.Get(Password) == s.errors.Get(Password); }
    }
    assert r.errors.contact == ContactRule(r.contact, r.otpMethod) by {
      if f != Contact { assert r.errors.Get(Contact) == s.errors.Get(Contact); }
    }
  }

  lemma PickMethodKeepsMessagesUpToDate(s: State, m: Method)
    requires MessagesUpToDate(s)
    ensures MessagesUpToDate(PickMethod(s, m))
  {
    var r := PickMethod(s, m);
    assert r.errors.Get(Username) == s.errors.Get(Username);
    assert r.errors.Get(Password) == s.errors.Get(Password);
    assert Value(r, Username) == Value(s, Username);
    assert Value(r, Password) == Value(s, Password);
  }

  /** The confirmation's message can go stale: the page re-checks it against
      the password being replaced. With a username and an email address
      typed, then a password `p` of at least 7 characters, a confirmation
      one character shorter, and then the password's last character
      deleted, every field is valid and the password and confirmation are
      equal, yet the mismatch message stays and `isLoginFormValid()` is
      false. The same events under the intended re-check make it true. */
  lemma StaleConfirmMessage(u: string, c: string, p: string)
    requires IsUsername(u) && IsEmailAddress(c) && |p| >= 7
    ensures var q := p[..|p| - 1];
            var s := InputChange(InputChange(InputChange(InputChange(InputChange(Initial,
                       Username, u), Contact, c), Password, p), PasswordConfirm, q), Password, q);
            var t := InputChangeIntended(InputChangeIntended(InputChangeIntended(InputChangeIntended(
                       InputChangeIntended(Initial, Username, u), Contact, c), Password, p), PasswordConfirm, q), Password, q);
            && s.password == s.passwordConfirm
            && s.errors.passwordConfirm == PasswordMismatch
            && !ConfirmUpToDate(s)
            && IsFormValid(s)
            && !IsLoginFormValid(s)
            && IsLoginFormValid(t)
  {
    var q := p[..|p| - 1];
    assert q != p by { assert |q| != |p|; }
    var s1 := InputChange(Initial, Username, u);
    var s2 := InputChange(s1, Contact, c);
    var s3 := InputChange(s2, Password, p);
    var s4 := InputChange(s3, PasswordConfirm, q);
    var s5 := InputChange(s4, Password, q);
    assert s4.errors.passwordConfirm == PasswordMismatch;
    assert s5.errors.passwordConfirm == PasswordMismatch;
    var t1 := InputChangeIntended(Initial, Username, u);
    var t2 := InputChangeIntended(t1, Contact, c);
    var t3 := InputChangeIntended(t2, Password, p);
    var t4 := InputChangeIntended(t3, PasswordConfirm, q);
    var t5 := InputChangeIntended(t4, Password, q);
    IntendedInputKeepsMessagesUpToDate(Initial, Username, u);
    IntendedInputKeepsMessagesUpToDate(t1, Contact, c);
    IntendedInputKeepsMessagesUpToDate(t2, Password, p);
    IntendedInputKeepsMessagesUpToDate(t3, PasswordConfirm, q);
    IntendedInputKeepsMessagesUpToDate(t4, Password, q);
    assert t5.username == u && t5.contact == c && t5.otpMethod == Email;
    assert t5.password == q && t5.passwordConfirm == q;
    LoginGateMeansValidForm(t5);
    assert s5.username == u && s5.contact == c && s5.password == q && s5.passwordConfirm == q;
  }

  /** The intended input event keeps the username, password and contact
      messages current, as the page's own does. */
  lemma IntendedInputKeepsMessagesUpToDate(s: State, f: Field, v: string)
    requires MessagesUpToDate(s)
    ensures MessagesUpToDate(InputChangeIntended(s, f, v))
  {
    InputKeepsMessagesUpToDate(s, f, v);
    var r := InputChangeIntended(s, f, v);
    var r' := InputChange(s, f, v);
    assert r.username == r'.username && r.password == r'.password;
    assert r.contact == r'.contact && r.otpMethod == r'.otpMethod;
    assert r.errors.Get(Username) == r'.errors.Get(Username);
    assert r.errors.Get(Password) == r'.errors.Get(Password);
    assert r.errors.Get(Contact) == r'.errors.Get(Contact);
  }

  /** With the intended re-check, the confirmation's message is always the
      one its value and the current password call for. */
  lemma {:induction false} IntendedInputKeepsConfirmUpToDate(s: State, steps: seq<(Field, string)>)
    requires ConfirmUpToDate(s)
    ensures ConfirmUpToDate(ApplyIntended(s, steps))
    decreases |steps|
  {
    if steps != [] {
      IntendedInputKeepsConfirmUpToDate(InputChangeIntended(s, steps[0].0, steps[0].1), steps[1..]);
    }
  }

  /** A sequence of input events under the intended `handleInputChange`. */
  function ApplyIntended(s: State, steps: seq<(Field, string)>): State
    decreases |steps|
  {
    if steps == [] then s else ApplyIntended(InputChangeIntended(s, steps[0].0, steps[0].1), steps[1..])
  }

  /** The login step's submit gate is `isFormValid`, which looks at no
      validation message: a username that is flagged as too short and a
      contact that is flagged as no email address (for instance "a" and "x")
      still send `request-otp`. */
  lemma SendOtpIgnoresMessages(username: string, password: string, contact: string, reply: Reply)
    requires 0 < |username| < 3 && !IsSpace(username[0]) && |password| >= 6
    requires contact != [] && !IsSpace(contact[0]) && !IsEmailAddress(contact)
    ensures var s := InputChange(InputChange(InputChange(InputChange(Initial,
                       Username, username), Password, password), PasswordConfirm, password), Contact, contact);
            && s.errors.username == UsernameTooShort
            && s.errors.contact == EmailBadFormat
            && Dispatch(s, Submit(reply)).request.Some?
  {
    var s1 := InputChange(Initial, Username, username);
    assert s1.errors.Get(Username) == UsernameTooShort;
    var s2 := InputChange(s1, Password, password);
    assert s2.errors.Get(Username) == UsernameTooShort;
    var s3 := InputChange(s2, PasswordConfirm, password);
    assert s3.errors.Get(Username) == UsernameTooShort && s3.otpMethod == Email;
    var s := InputChange(s3, Contact, contact);
    assert s.errors.Get(Username) == UsernameTooShort;
    assert s.errors.Get(Contact) == EmailBadFormat;
    TrimKeepsNonSpace(username, 0);
    TrimKeepsNonSpace(contact, 0);
    FilledLoginFormSendsRequestOtp(username, password, contact, reply);
  }

  /** Filling in the login form (in email mode) and submitting sends exactly
      one `request-otp`, with the contact under `email`, and stays in the
      login step. */
  lemma FilledLoginFormSendsRequestOtp(username: string, password: string, contact: string, reply: Reply)
    requires |Trim(username)| > 0 && |password| >= 6 && |Trim(contact)| > 0
    ensures var s := InputChange(InputChange(InputChange(InputChange(Initial,
                       Username, username), Password, password), PasswordConfirm, password), Contact, contact);
            && Dispatch(s, Submit(reply)).request == Some(RequestOtp(username, password, Email, Some(contact), None))
            && Dispatch(s, Submit(reply)).state.step == Login
  {
    var s1 := InputChange(Initial, Username, username);
    assert Value(s1, Username) == username;
    var s2 := InputChange(s1, Password, password);
    assert Value(s2, Username) == username && Value(s2, Password) == password;
    var s3 := InputChange(s2, PasswordConfirm, password);
    assert Value(s3, Username) == username && Value(s3, Password) == password;
    assert Value(s3, PasswordConfirm) == password;
    var s := InputChange(s3, Contact, contact);
    assert Value(s, Username) == username && Value(s, Password) == password;
    assert Value(s, PasswordConfirm) == password && Value(s, Contact) == contact;
    assert s.otpMethod == Email && s.step == Login;
    assert IsFormValid(s);
    var o := HandleSendOtp(s, reply);
    assert o.request == Some(RequestOtpPayload(s));
    SubmitInLoginStep(s, reply);
  }

  /** The contact is valid in plain words for the chosen method. */
  predicate ContactValid(s: State) {
    if s.otpMethod == Email then IsEmailAddress(s.contact) else IsPhoneNumber(s.contact)
  }

  lemma ContactMessageMeaning(s: State)
    requires s.errors.contact == ContactRule(s.contact, s.otpMethod)
    ensures |Trim(s.contact)| > 0 && s.errors.contact == NoError <==> ContactValid(s)
  {
    EmailNotBlank(s.contact);
    EmailPatternMeaning(s.contact);
    PhoneNotBlank(s.contact);
    PhonePatternMeaning(s.contact);
    if |Trim(s.contact)| > 0 {
      TrimEmptyIffAllSpace(s.contact);
    }
  }

  /** When every message is current, `isLoginFormValid()` holds exactly when
      the login form is valid in plain words. */
  lemma LoginGateMeansValidForm(s: State)
    requires MessagesUpToDate(s) && ConfirmUpToDate(s)
    ensures IsLoginFormValid(s) <==>
              && IsUsername(s.username)
              && |s.password| >= 6
              && s.password == s.passwordConfirm
              && ContactValid(s)
  {
    ContactMessageMeaning(s);
    if IsUsername(s.username) {
      TrimWordChars(s.username);
    }
    if IsLoginFormValid(s) {
      TrimEmptyIffAllSpace(s.username);
    }
  }

  /** When the contact's message is current, `isMfaFormValid()` holds exactly
      when the contact is valid for the chosen method. */
  lemma MfaGateMeansValidContact(s: State)
    requires s.errors.contact == ContactRule(s.contact, s.otpMethod)
    ensures IsMfaFormValid(s) <==> ContactValid(s)
  {
    ContactMessageMeaning(s);
  }

  /** The second-factor path: a login reply that asks for a second factor
      moves to the method step with the reply's temporary token; picking SMS,
      typing a phone number and submitting then sends that token with the
      phone number and, on success, moves to the code step. */
  lemma MfaFlowCarriesTempToken(s: State, data: ResponseData, phone: string, reply: Reply)
    requires IsLoginFormValid(s) && data.mfaRequired && IsPhoneNumber(phone) && reply.Ok?
    ensures var m := HandleLogin(s, Ok(data)).state;
            var c := InputChange(PickMethod(m, Sms), Contact, phone);
            && m.step == Mfa && m.tempToken == data.tempToken
            && Dispatch(c, Submit(reply)).request == Some(SendOtp(data.tempToken, Sms, phone))
            && Dispatch(c, Submit(reply)).state.step == OtpEntry
  {
    var m := HandleLogin(s, Ok(data)).state;
    var c := InputChange(PickMethod(m, Sms), Contact, phone);
    assert Value(c, Contact) == phone && c.otpMethod == Sms;
    assert c.step == Mfa && c.tempToken == data.tempToken;
    assert c.errors.contact == ContactRule(phone, Sms);
    MfaGateMeansValidContact(c);
    SubmitInMfaStep(c, reply);
  }

  lemma SubmitInMfaStep(s: State, reply: Reply)
    requires s.step == Mfa
    ensures Dispatch(s, Submit(reply)).request == HandleSendOtpMfa(s, reply).request
    ensures Dispatch(s, Submit(reply)).state.step == HandleSendOtpMfa(s, reply).state.step
  {
  }

  lemma SubmitInLoginStep(s: State, reply: Reply)
    requires s.step == Login
    ensures Dispatch(s, Submit(reply)).request == HandleSendOtp(s, reply).request
    ensures Dispatch(s, Submit(reply)).state.step == HandleSendOtp(s, reply).state.step
  {
  }

  /** Typed code input with a non-digit is dropped as a whole (not stripped
      of the non-digit), yet its message is computed from what was typed. */
  lemma OtpInputRejectsWholeValue()
    ensures var s := InputChange(Initial.(step := OtpEntry, otp := "12"), Otp, "12a45");
            s.otp == "12" && s.errors.otp == OtpBadFormat
  {
    var v := "12a45";
    assert !IsDigit(v[2]);
    assert !AcceptsOtpInput(v);
  }
}

=== FILE: auth_page.dfy ===
/** The login page (`src/pages/AuthPage.jsx`): its form state, its field
    validator, its input handlers, its submit predicates and its four submit
    handlers, each a pure transition from the state the handler's closure
    sees to the state after the handler has finished. */
module AuthPage {
  import opened Chars
  import opened Regex
  import opened Patterns
  import opened Rules
  import opened Api

  datatype Method = Email | Sms | Voice

  /** The page has no success step: a verified code stores the token and
      stays on the OTP step. */
  datatype Step = Login | Mfa | OtpEntry

  datatype Field = Username | Password | PasswordConfirm | Contact | Otp

  /** `validationErrors`: one message per field. */
  datatype Errors = Errors(username: FieldError, password: FieldError, passwordConfirm: FieldError,
                           contact: FieldError, otp: FieldError)
  {
    function Get(f: Field): FieldError {
      match f
      case Username => username
      case Password => password
      case PasswordConfirm => passwordConfirm
      case Contact => contact
      case Otp => otp
    }

    /** `{...prev, [f]: e}` */
    function Set(f: Field, e: FieldError): (r: Errors)
      ensures r.Get(f) == e
      ensures forall g :: g != f ==> r.Get(g) == Get(g)
    {
      match f
      case Username => this.(username := e)
      case Password => this.(password := e)
      case PasswordConfirm => this.(passwordConfirm := e)
      case Contact => this.(contact := e)
      case Otp => this.(otp := e)
    }
  }

  const NoErrors: Errors := Errors(NoError, NoError, NoError, NoError, NoError)

  datatype State = State(
    username: string,
    password: string,
    passwordConfirm: string,
    contact: string,          // an email address or a phone number, after `otpMethod`
    otpMethod: Method,
    otp: string,
    step: Step,
    tempToken: string,
    error: string,            // the banner
    loading: bool,
    errors: Errors)

  /** The state when the page mounts. */
  const Initial: State := State("", "", "", "", Email, "", Login, "", "", false, NoErrors)

  /** The stored value of an input field. */
  function Value(s: State, f: Field): string {
    match f
    case Username => s.username
    case Password => s.password
    case PasswordConfirm => s.passwordConfirm
    case Contact => s.contact
    case Otp => s.otp
  }

  // The banner texts the handlers set themselves.
  const FormIncompleteMessage: string :=
    "Veuillez remplir correctement tous les champs et vérifier que les mots de passe correspondent."
  const FixErrorsMessage: string := "Veuillez corriger les erreurs avant de continuer."
  const BadOtpMessage: string := "Veuillez saisir un OTP valide (6 chiffres)."
  const SendOtpFallback: string := "Une erreur est survenue lors de l'envoi de l'OTP."
  const LoginFallback: string := "Une erreur est survenue lors de la connexion."
  const VerifyFallback: string := "Une erreur est survenue lors de la vérification de l'OTP."

  /** The contact rule: the email rule in email mode, the phone rule in SMS
      and voice mode. */
  function ContactRule(v: string, m: Method): (e: FieldError)
    ensures e == (if m == Email then EmailRule(v) else PhoneRule(v))
    ensures m == Email ==> (e != NoError <==> v != [] && !IsEmailAddress(v))
    ensures m != Email ==> (e != NoError <==> v != [] && !IsPhoneNumber(v))
  {
    EmailPatternMeaning(v);
    PhonePatternMeaning(v);
    if |v| == 0 then NoError
    else if m == Email && !Matches(EmailPattern, v) then EmailBadFormat
    else if (m == Sms || m == Voice) && !Matches(PhonePattern, v) then PhoneBadFormat
    else
      assert m == Email ==> EmailRule(v) == NoError;
      assert m != Email ==> PhoneRule(v) == NoError;
      NoError
  }

  /** `validateField(field, value)`, with the `password` and `otpMethod` its
      closure reads passed in explicitly. */
  function Validate(f: Field, v: string, password: string, m: Method): (e: FieldError)
    ensures v == [] ==> e == NoError
    ensures f == Username ==> e == AuthUsernameRule(v)
    ensures f == Password ==> e == PasswordRule(v)
    ensures f == PasswordConfirm ==> e == ConfirmRule(v, password)
    ensures f == Contact ==> e == ContactRule(v, m)
    ensures f == Otp ==> e == OtpRule(v)
  {
    match f
    case Username => AuthUsernameRule(v)
    case Password => PasswordRule(v)
    case PasswordConfirm => ConfirmRule(v, password)
    case Contact => ContactRule(v, m)
    case Otp => OtpRule(v)
  }

  /** No field is ever flagged while it is empty. */
  lemma EmptyIsNeverFlagged(f: Field, password: string, m: Method)
    ensures Validate(f, [], password, m) == NoError
  {
  }

  /** Whether typed OTP input is stored: at most 6 characters, all digits. */
  function AcceptsOtpInput(v: string): (b: bool)
    ensures b <==> |v| <= 6 && AllDigits(v)
  {
    DigitsPatternMeaning(v);
    |v| <= 6 && Matches(DigitsPattern, v)
  }

  /** `handleInputChange(field, value)`. Every validation inside the event
      sees the state before the event: a password change re-checks a
      non-empty confirmation against the password being replaced. */
  function InputChange(s: State, f: Field, v: string): (r: State)
    ensures Value(r, f) == (if f == Otp && !(|v| <= 6 && AllDigits(v)) then s.otp else v)
    ensures forall g :: g != f ==> Value(r, g) == Value(s, g)
    ensures r.otpMethod == s.otpMethod && r.step == s.step && r.tempToken == s.tempToken
    ensures r.error == s.error && r.loading == s.loading
    ensures r.errors.Get(f) == Validate(f, v, s.password, s.otpMethod)
    ensures f == Password && s.passwordConfirm != [] ==>
              r.errors.passwordConfirm == ConfirmRule(s.passwordConfirm, s.password)
    ensures forall g :: g != f && !(f == Password && g == PasswordConfirm && s.passwordConfirm != []) ==>
              r.errors.Get(g) == s.errors.Get(g)
  {
    var revalidated :=
      if f == Password && s.passwordConfirm != [] then
        s.errors.Set(PasswordConfirm, Validate(PasswordConfirm, s.passwordConfirm, s.password, s.otpMethod))
      else s.errors;
    var errors := revalidated.Set(f, Validate(f, v, s.password, s.otpMethod));
    match f
    case Username => s.(username := v, errors := errors)
    case Password => s.(password := v, errors := errors)
    case PasswordConfirm => s.(passwordConfirm := v, errors := errors)
    case Contact => s.(contact := v, errors := errors)
    case Otp => if AcceptsOtpInput(v) then s.(otp := v, errors := errors) else s.(errors := errors)
  }

  /** `handleInputChange` as its comment intends it: a password change
      re-checks a non-empty confirmation against the NEW password. This is
      the corrected counterpart of `InputChange`; it differs from it only in
      the confirmation message after a password change. */
  function InputChangeIntended(s: State, f: Field, v: string): (r: State)
    ensures r.(errors := s.errors) == InputChange(s, f, v).(errors := s.errors)
    ensures forall g :: g != PasswordConfirm ==> r.errors.Get(g) == InputChange(s, f, v).errors.Get(g)
    ensures f == Password && s.passwordConfirm != [] ==>
              r.errors.passwordConfirm == ConfirmRule(s.passwordConfirm, v)
    ensures !(f == Password && s.passwordConfirm != []) ==> r == InputChange(s, f, v)
    ensures ConfirmUpToDate(s) ==> ConfirmUpToDate(r)
  {
    var revalidated :=
      if f == Password && s.passwordConfirm != [] then
        s.errors.Set(PasswordConfirm, Validate(PasswordConfirm, s.passwordConfirm, v, s.otpMethod))
      else s.errors;
    var errors := revalidated.Set(f, Validate(f, v, s.password, s.otpMethod));
    match f
    case Username => s.(username := v, errors := errors)
    case Password => s.(password := v, errors := errors)
    case PasswordConfirm => s.(passwordConfirm := v, errors := errors)
    case Contact => s.(contact := v, errors := errors)
    case Otp => if AcceptsOtpInput(v) then s.(otp := v, errors := errors) else s.(errors := errors)
  }

  /** The confirmation's message is the one its current value and the
      current password call for. */
  predicate ConfirmUpToDate(s: State) {
    s.errors.passwordConfirm == ConfirmRule(s.passwordConfirm, s.password)
  }

  /** The `onChange` of the OTP-method select: the contact and its message
      are cleared, nothing else changes. */
  function PickMethod(s: State, m: Method): (r: State)
    ensures r.otpMethod == m && r.contact == [] && r.errors.contact == NoError
    ensures forall g :: g != Contact ==> Value(r, g) == Value(s, g) && r.errors.Get(g) == s.errors.Get(g)
    ensures r.step == s.step && r.tempToken == s.tempToken && r.error == s.error && r.loading == s.loading
  {
    s.(otpMethod := m, contact := "", errors := s.errors.Set(Contact, NoError))
  }

  /** The "change method" button: back to the method step, keeping the
      code typed so far. */
  function BackToMethod(s: State): (r: State)
    ensures r.step == Mfa && r.otp == s.otp
    ensures r.(step := s.step) == s
  {
    s.(step := Mfa)
  }

  /** `isFormValid`, the enabling condition of the login step's button: a
      username and a contact that are not blank, a password of at least 6
      characters and a matching confirmation. No validation message is
      read. */
  function IsFormValid(s: State): (b: bool)
    ensures b <==>
              && !AllSpace(s.username)
              && |s.password| >= 6
              && s.password == s.passwordConfirm
              && !AllSpace(s.contact)
  {
    TrimEmptyIffAllSpace(s.username);
    TrimEmptyIffAllSpace(s.contact);
    && |Trim(s.username)| > 0
    && |s.password| >= 6
    && s.password == s.passwordConfirm
    && |Trim(s.contact)| > 0
  }

  /** `isLoginFormValid()`: `isFormValid` with a longer trimmed username and
      no validation message on the four login fields. */
  function IsLoginFormValid(s: State): (b: bool)
    ensures b ==> IsFormValid(s)
    ensures b ==> forall f :: f != Otp ==> s.errors.Get(f) == NoError
  {
    && |Trim(s.username)| >= 3
    && |s.password| >= 6
    && s.password == s.passwordConfirm
    && |Trim(s.contact)| > 0
    && s.errors.username == NoError
    && s.errors.password == NoError
    && s.errors.passwordConfirm == NoError
    && s.errors.contact == NoError
  }

  /** `isMfaFormValid()`: a non-blank contact with no validation message.
      While that message is the one the contact calls for, this is exactly
      a contact that is valid for the chosen method. */
  function IsMfaFormValid(s: State): (b: bool)
    ensures b <==> !AllSpace(s.contact) && s.errors.contact == NoError
    ensures s.errors.contact == ContactRule(s.contact, s.otpMethod) ==>
              (b <==> if s.otpMethod == Email then IsEmailAddress(s.contact) else IsPhoneNumber(s.contact))
  {
    TrimEmptyIffAllSpace(s.contact);
    EmailNotBlank(s.contact);
    EmailPatternMeaning(s.contact);
    PhoneNotBlank(s.contact);
    PhonePatternMeaning(s.contact);
    |Trim(s.contact)| > 0 && s.errors.contact == NoError
  }

  /** `isOtpValid()`: the stored code is exactly six digits. */
  function IsOtpValid(s: State): (b: bool)
    ensures b <==> |s.otp| == 6 && AllDigits(s.otp)
  {
    OtpPatternMeaning(s.otp);
    Matches(OtpPattern, s.otp)
  }

  /** The requests the page can issue. `RequestOtp` carries the contact
      under `email` or under `phone`, never both. */
  datatype Request =
    | RequestOtp(username: string, password: string, otpMethod: Method, email: Option<string>, phone: Option<string>)
    | LoginRequest(username: string, password: string)
    | SendOtp(tempToken: string, channel: Method, contact: string)  // `channel` is sent as `method`
    | VerifyOtp(tempToken: string, otp: string)

  /** What a handler leaves behind: the state once it has completed, the
      request it issued, and the token it wrote to local storage. */
  datatype Outcome = Outcome(state: State, request: Option<Request>, storedToken: Option<string>)

  /** The payload of `request-otp`. */
  function RequestOtpPayload(s: State): (q: Request)
    ensures q.RequestOtp? && q.username == s.username && q.password == s.password && q.otpMethod == s.otpMethod
    ensures q.email.Some? <==> s.otpMethod == Email
    ensures q.phone.Some? <==> s.otpMethod != Email
    ensures q.email.Some? ==> q.email.value == s.contact
    ensures q.phone.Some? ==> q.phone.value == s.contact
  {
    if s.otpMethod == Email then RequestOtp(s.username, s.password, s.otpMethod, Some(s.contact), None)
    else RequestOtp(s.username, s.password, s.otpMethod, None, Some(s.contact))
  }

  /** The contact and method a `request-otp` payload was built from can be
      read back from it. */
  function PayloadContact(q: Request): (c: Option<string>)
    requires q.RequestOtp?
    ensures c.Some? <==> q.email.Some? || q.phone.Some?
  {
    if q.email.Some? then Some(q.email.value)
    else if q.phone.Some? then Some(q.phone.value)
    else None
  }

  lemma RequestOtpPayloadRoundTrip(s: State)
    ensures PayloadContact(RequestOtpPayload(s)) == Some(s.contact)
    ensures RequestOtpPayload(s).otpMethod == s.otpMethod
  {
  }

  /** `handleSendOtp`, the login step's submit handler. */
  function HandleSendOtp(s: State, reply: Reply): (o: Outcome)
    ensures o.request.Some? <==> IsFormValid(s)
    ensures !IsFormValid(s) ==> o.state == s.(error := FormIncompleteMessage)
    ensures IsFormValid(s) ==> o.request == Some(RequestOtpPayload(s))
    ensures IsFormValid(s) ==> o.state.(error := s.error, loading := s.loading) == s && !o.state.loading
    ensures IsFormValid(s) && reply.Ok? ==> o.state.error == ""
    ensures IsFormValid(s) && reply.Err? ==> o.state.error == ServerText(reply.body.message, SendOtpFallback)
    ensures o.state.step == s.step && o.storedToken == None
  {
    if !IsFormValid(s) then
      Outcome(s.(error := FormIncompleteMessage), None, None)
    else
      var error := match reply
        case Ok(_) => ""
        case Err(body) => ServerText(body.message, SendOtpFallback);
      Outcome(s.(error := error, loading := false), Some(RequestOtpPayload(s)), None)
  }

  /** `handleLogin`. No control of the page submits it (the login step's form
      and button call `handleSendOtp`); it is modelled on its own. */
  function HandleLogin(s: State, reply: Reply): (o: Outcome)
    ensures o.request.Some? <==> IsLoginFormValid(s)
    ensures !IsLoginFormValid(s) ==> o.state == s.(error := FixErrorsMessage) && o.storedToken == None
    ensures IsLoginFormValid(s) ==> o.request == Some(LoginRequest(s.username, s.password)) && !o.state.loading
    ensures IsLoginFormValid(s) && reply.Ok? && reply.data.mfaRequired ==>
              o.state.step == Mfa && o.state.tempToken == reply.data.tempToken && o.storedToken == None
    ensures IsLoginFormValid(s) && reply.Ok? && !reply.data.mfaRequired ==>
              o.state.step == s.step && o.storedToken == Some(reply.data.token)
    ensures IsLoginFormValid(s) && reply.Ok? ==> o.state.error == ""
    ensures reply.Err? ==> o.state.step == s.step && o.state.tempToken == s.tempToken && o.storedToken == None
    ensures IsLoginFormValid(s) && reply.Err? ==> o.state.error == ServerText(reply.body.error, LoginFallback)
    ensures !(IsLoginFormValid(s) && reply.Ok? && reply.data.mfaRequired) ==> o.state.tempToken == s.tempToken
    ensures o.state.(step := s.step, tempToken := s.tempToken, error := s.error, loading := s.loading) == s
  {
    if !IsLoginFormValid(s) then
      Outcome(s.(error := FixErrorsMessage), None, None)
    else
      var request := Some(LoginRequest(s.username, s.password));
      match reply
      case Ok(data) =>
        if data.mfaRequired then
          Outcome(s.(error := "", loading := false, tempToken := data.tempToken, step := Mfa), request, None)
        else
          Outcome(s.(error := "", loading := false), request, Some(data.token))
      case Err(body) =>
        Outcome(s.(error := ServerText(body.error, LoginFallback), loading := false), request, None)
  }

  /** `handleSendOtpMfa`, the method step's submit handler. */
  function HandleSendOtpMfa(s: State, reply: Reply): (o: Outcome)
    ensures o.request.Some? <==> IsMfaFormValid(s)
    ensures !IsMfaFormValid(s) ==> o.state == s.(error := FixErrorsMessage)
    ensures IsMfaFormValid(s) ==> o.request == Some(SendOtp(s.tempToken, s.otpMethod, s.contact)) && !o.state.loading
    ensures IsMfaFormValid(s) && reply.Ok? ==> o.state.step == OtpEntry && o.state.error == ""
    ensures reply.Err? ==> o.state.step == s.step
    ensures IsMfaFormValid(s) && reply.Err? ==> o.state.error == ServerText(reply.body.error, SendOtpFallback)
    ensures o.state.(step := s.step, error := s.error, loading := s.loading) == s
    ensures o.storedToken == None
  {
    if !IsMfaFormValid(s) then
      Outcome(s.(error := FixErrorsMessage), None, None)
    else
      var request := Some(SendOtp(s.tempToken, s.otpMethod, s.contact));
      match reply
      case Ok(_) => Outcome(s.(error := "", loading := false, step := OtpEntry), request, None)
      case Err(body) => Outcome(s.(error := ServerText(body.error, SendOtpFallback), loading := false), request, None)
  }

  /** `handleVerifyOtp`, the OTP step's submit handler. */
  function HandleVerifyOtp(s: State, reply: Reply): (o: Outcome)
    ensures o.request.Some? <==> |s.otp| == 6 && AllDigits(s.otp)
    ensures !IsOtpValid(s) ==> o.state == s.(error := BadOtpMessage) && o.storedToken == None
    ensures IsOtpValid(s) ==> o.request == Some(VerifyOtp(s.tempToken, s.otp)) && !o.state.loading
    ensures IsOtpValid(s) && reply.Ok? ==> o.storedToken == Some(reply.data.token) && o.state.error == ""
    ensures reply.Err? ==> o.storedToken == None
    ensures IsOtpValid(s) && reply.Err? ==> o.state.error == ServerText(reply.body.error, VerifyFallback)
    ensures o.state.(error := s.error, loading := s.loading) == s
  {
    if !IsOtpValid(s) then
      Outcome(s.(error := BadOtpMessage), None, None)
    else
      var request := Some(VerifyOtp(s.tempToken, s.otp));
      match reply
      case Ok(data) => Outcome(s.(error := "", loading := false), request, Some(data.token))
      case Err(body) => Outcome(s.(error := ServerText(body.error, VerifyFallback), loading := false), request, None)
  }
}

=== FILE: chars.dfy ===
/** Character classes used by the page validators, and the `trim` of
    JavaScript strings. */
module Chars {

  /** The characters matched by `\s` in a JavaScript regular expression and
      removed by `String.prototype.trim`: ECMAScript WhiteSpace and
      LineTerminator (the Zs space separators are listed as of Unicode 15). */
  predicate IsSpace(c: char) {
    || c == '\t' || c == '\n' || c == '\U{000B}' || c == '\U{000C}' || c == '\r'
    || c == ' ' || c == '\U{00A0}' || c == '\U{1680}'
    || ('\U{2000}' <= c <= '\U{200A}')
    || c == '\U{2028}' || c == '\U{2029}' || c == '\U{202F}' || c == '\U{205F}'
    || c == '\U{3000}' || c == '\U{FEFF}'
  }

  /** `\d` without the `u` flag: the ASCII digits only. */
  predicate IsDigit(c: char) {
    '0' <= c <= '9'
  }

  /** `[1-9]` */
  predicate IsNonZeroDigit(c: char) {
    '1' <= c <= '9'
  }

  /** `[a-zA-Z0-9_]` */
  predicate IsWordChar(c: char) {
    ('a' <= c <= 'z') || ('A' <= c <= 'Z') || IsDigit(c) || c == '_'
  }

  /** `[^\s@]` */
  predicate IsPlainEmailChar(c: char) {
    !IsSpace(c) && c != '@'
  }

  predicate AllSpace(s: string) {
    forall i :: 0 <= i < |s| ==> IsSpace(s[i])
  }

  predicate AllDigits(s: string) {
    forall i :: 0 <= i < |s| ==> IsDigit(s[i])
  }

  predicate AllWordChars(s: string) {
    forall i :: 0 <= i < |s| ==> IsWordChar(s[i])
  }

  /** The first index at or after `i` that is not whitespace (or `|s|`). */
  function SkipSpace(s: string, i: nat): (n: nat)
    requires i <= |s|
    ensures i <= n <= |s|
    ensures forall k :: i <= k < n ==> IsSpace(s[k])
    ensures n < |s| ==> !IsSpace(s[n])
    decreases |s| - i
  {
    if i < |s| && IsSpace(s[i]) then SkipSpace(s, i + 1) else i
  }

  /** The end of `s[lo..j]` once its trailing whitespace is removed. */
  function SkipSpaceBack(s: string, lo: nat, j: nat): (m: nat)
    requires lo <= j <= |s|
    ensures lo <= m <= j
    ensures forall k :: m <= k < j ==> IsSpace(s[k])
    ensures lo < m ==> !IsSpace(s[m - 1])
    decreases j
  {
    if lo < j && IsSpace(s[j - 1]) then SkipSpaceBack(s, lo, j - 1) else j
  }

  /** `String.prototype.trim`: the string without its leading and trailing
      whitespace. */
  function Trim(s: string): (t: string)
    ensures |t| <= |s|
    ensures t != [] ==> !IsSpace(t[0]) && !IsSpace(t[|t| - 1])
    ensures exists a :: 0 <= a <= |s| - |t| && t == s[a..a + |t|] && AllSpace(s[..a]) && AllSpace(s[a + |t|..])
  {
    var a := SkipSpace(s, 0);
    var e := SkipSpaceBack(s, a, |s|);
    var t := s[a..e];
    assert AllSpace(s[..a]) by {
      forall k | 0 <= k < a ensures IsSpace(s[..a][k]) { assert s[..a][k] == s[k]; }
    }
    assert AllSpace(s[e..]) by {
      forall k | 0 <= k < |s| - e ensures IsSpace(s[e..][k]) { assert s[e..][k] == s[e + k]; }
    }
    assert t != [] ==> t[0] == s[a] && t[|t| - 1] == s[e - 1];
    assert t == s[a..a + |t|];
    t
  }

  /** A string trims to the empty string exactly when it is all whitespace. */
  lemma TrimEmptyIffAllSpace(s: string)
    ensures Trim(s) == [] <==> AllSpace(s)
  {
    var a := SkipSpace(s, 0);
    var e := SkipSpaceBack(s, a, |s|);
    assert Trim(s) == s[a..e];
    if AllSpace(s) {
      assert a == |s|;
    }
    if Trim(s) == [] {
      assert a == e;
      forall k | 0 <= k < |s| ensures IsSpace(s[k]) {
      }
    }
  }

  /** A string holding one non-whitespace character does not trim to empty. */
  lemma TrimKeepsNonSpace(s: string, i: int)
    requires 0 <= i < |s| && !IsSpace(s[i])
    ensures |Trim(s)| > 0
  {
    TrimEmptyIffAllSpace(s);
  }

  /** A string of letters, digits and underscores has no whitespace to trim. */
  lemma TrimWordChars(s: string)
    requires AllWordChars(s)
    ensures Trim(s) == s
  {
    var a := SkipSpace(s, 0);
    if s != [] {
      assert !IsSpace(s[0]) && !IsSpace(s[|s| - 1]);
    }
    assert a == 0;
    assert SkipSpaceBack(s, 0, |s|) == |s|;
    assert s[0..|s|] == s;
  }
}

=== FILE: patterns.dfy ===
/** The regular expressions both pages declare (AuthPage.jsx and
    SignupPage.jsx use the same email, phone and username literals), written
    as `Regex` values, each with the plain-words description it stands for and
    a lemma that the two agree on every string. */
module Patterns {
  import opened Chars
  import opened Regex

  /** `/^[^\s@]+@[^\s@]+\.[^\s@]+$/` */
  const EmailPattern: Regex :=
    Cat(Plus(Any(NotSpaceOrAt)),
    Cat(Lit('@'),
    Cat(Plus(Any(NotSpaceOrAt)),
    Cat(Lit('.'),
        Plus(Any(NotSpaceOrAt))))))

  /** `/^\+?[1-9]\d{1,14}$/` */
  const PhonePattern: Regex :=
    Cat(Opt(Lit('+')),
    Cat(Any(NonZeroDigit),
        Rep(Any(Digit), 1, 14)))

  /** `/^[a-zA-Z0-9_]{3,20}$/` */
  const UsernamePattern: Regex := Rep(Any(WordChar), 3, 20)

  /** `/^\d{6}$/` */
  const OtpPattern: Regex := Rep(Any(Digit), 6, 6)

  /** `/^\d*$/`, the filter on typed OTP input */
  const DigitsPattern: Regex := Star(Any(Digit))

  /** No whitespace anywhere. */
  predicate NoSpace(s: string) {
    forall i :: 0 <= i < |s| ==> !IsSpace(s[i])
  }

  /** `s[i]` is the only `@` of `s`. */
  predicate OnlyAtSignAt(s: string, i: int) {
    forall j :: 0 <= j < |s| && j != i ==> s[j] != '@'
  }

  /** A `.` that is neither the first nor the last character. */
  predicate DotInside(d: string) {
    exists j :: 0 < j < |d| - 1 && d[j] == '.'
  }

  /** An email address in plain words: exactly one `@`, preceded by at least
      one character, no whitespace, and a `.` strictly inside the domain that
      follows the `@`. */
  predicate IsEmailAddress(s: string) {
    exists i :: 0 < i < |s| && s[i] == '@' && OnlyAtSignAt(s, i) && NoSpace(s) && DotInside(s[i + 1..])
  }

  /** The digits of a phone number: what follows an optional leading `+`. */
  function PhoneDigits(s: string): string {
    if s != [] && s[0] == '+' then s[1..] else s
  }

  /** A phone number in plain words: an optional `+`, then 2 to 15 ASCII
      digits of which the first is not `0`. */
  predicate IsPhoneNumber(s: string) {
    var d := PhoneDigits(s);
    2 <= |d| <= 15 && AllDigits(d) && d[0] != '0'
  }

  /** A username in plain words: 3 to 20 letters, digits or underscores. */
  predicate IsUsername(s: string) {
    3 <= |s| <= 20 && AllWordChars(s)
  }

  /** A complete one-time code: exactly 6 ASCII digits. */
  predicate IsOtpCode(s: string) {
    |s| == 6 && AllDigits(s)
  }

  /** The domain part of the email pattern, `[^\s@]+\.[^\s@]+`. */
  lemma DomainMeaning(d: string)
    ensures Matches(Cat(Plus(Any(NotSpaceOrAt)), Cat(Lit('.'), Plus(Any(NotSpaceOrAt)))), d)
            <==> AllIn(NotSpaceOrAt, d) && DotInside(d)
  {
    var p := Plus(Any(NotSpaceOrAt));
    var tail := Cat(Lit('.'), p);
    PlusClassThenMeaning(NotSpaceOrAt, tail, d);
    if Matches(Cat(p, tail), d) {
      var n :| 1 <= n <= |d| && AllIn(NotSpaceOrAt, d[..n]) && Matches(tail, d[n..]);
      DomainFromSplit(d, n);
    }
    if AllIn(NotSpaceOrAt, d) && DotInside(d) {
      var j :| 0 < j < |d| - 1 && d[j] == '.';
      DomainToSplit(d, j);
    }
  }

  lemma DomainFromSplit(d: string, n: int)
    requires 1 <= n <= |d| && AllIn(NotSpaceOrAt, d[..n])
    requires Matches(Cat(Lit('.'), Plus(Any(NotSpaceOrAt))), d[n..])
    ensures AllIn(NotSpaceOrAt, d) && DotInside(d)
  {
    LitThenMeaning('.', Plus(Any(NotSpaceOrAt)), d[n..]);
    PlusClassMeaning(NotSpaceOrAt, d[n..][1..]);
    forall i | 0 <= i < |d| ensures InClass(NotSpaceOrAt, d[i]) {
      if i < n {
        assert d[..n][i] == d[i];
      } else if i > n {
        assert d[n..][1..][i - n - 1] == d[i];
      }
    }
    assert d[n] == '.';
  }

  lemma DomainToSplit(d: string, j: int)
    requires AllIn(NotSpaceOrAt, d) && 0 < j < |d| - 1 && d[j] == '.'
    ensures AllIn(NotSpaceOrAt, d[..j]) && Matches(Cat(Lit('.'), Plus(Any(NotSpaceOrAt))), d[j..])
  {
    PlusClassMeaning(NotSpaceOrAt, d[j + 1..]);
    assert d[j..][1..] == d[j + 1..];
    LitThenMeaning('.', Plus(Any(NotSpaceOrAt)), d[j..]);
  }

  /** The email pattern split at its `@`. */
  lemma EmailPatternSplit(s: string)
    ensures Matches(EmailPattern, s) <==>
            exists i :: 0 < i < |s| && s[i] == '@' && AllIn(NotSpaceOrAt, s[..i])
                        && AllIn(NotSpaceOrAt, s[i + 1..]) && DotInside(s[i + 1..])
  {
    var p := Plus(Any(NotSpaceOrAt));
    var domain := Cat(p, Cat(Lit('.'), p));
    var rest := Cat(Lit('@'), domain);
    PlusClassThenMeaning(NotSpaceOrAt, rest, s);
    if Matches(EmailPattern, s) {
      var i :| 1 <= i <= |s| && AllIn(NotSpaceOrAt, s[..i]) && Matches(rest, s[i..]);
      LitThenMeaning('@', domain, s[i..]);
      assert s[i..][1..] == s[i + 1..];
      DomainMeaning(s[i + 1..]);
    }
    if exists i :: 0 < i < |s| && s[i] == '@' && AllIn(NotSpaceOrAt, s[..i])
                   && AllIn(NotSpaceOrAt, s[i + 1..]) && DotInside(s[i + 1..]) {
      var i :| 0 < i < |s| && s[i] == '@' && AllIn(NotSpaceOrAt, s[..i])
               && AllIn(NotSpaceOrAt, s[i + 1..]) && DotInside(s[i + 1..]);
      DomainMeaning(s[i + 1..]);
      assert s[i..][1..] == s[i + 1..];
      LitThenMeaning('@', domain, s[i..]);
    }
  }

  /** The email regex accepts exactly the plain-words email addresses. */
  lemma EmailPatternMeaning(s: string)
    ensures Matches(EmailPattern, s) <==> IsEmailAddress(s)
  {
    EmailPatternSplit(s);
    if Matches(EmailPattern, s) {
      var i :| 0 < i < |s| && s[i] == '@' && AllIn(NotSpaceOrAt, s[..i])
               && AllIn(NotSpaceOrAt, s[i + 1..]) && DotInside(s[i + 1..]);
      forall j | 0 <= j < |s| && j != i ensures IsPlainEmailChar(s[j]) {
        if j < i {
          assert s[..i][j] == s[j];
        } else {
          assert s[i + 1..][j - i - 1] == s[j];
        }
      }
      assert OnlyAtSignAt(s, i) && NoSpace(s);
    }
    if IsEmailAddress(s) {
      var i :| 0 < i < |s| && s[i] == '@' && OnlyAtSignAt(s, i) && NoSpace(s) && DotInside(s[i + 1..]);
      assert AllIn(NotSpaceOrAt, s[..i]);
      assert AllIn(NotSpaceOrAt, s[i + 1..]);
    }
  }

  /** The phone regex accepts exactly the plain-words phone numbers. */
  lemma PhonePatternMeaning(s: string)
    ensures Matches(PhonePattern, s) <==> IsPhoneNumber(s)
  {
    var digits := Cat(Any(NonZeroDigit), Rep(Any(Digit), 1, 14));
    OptLitThenMeaning('+', digits, s);
    forall t: string ensures Matches(digits, t) <==> 2 <= |t| <= 15 && AllDigits(t) && t[0] != '0' {
      DigitsMeaning(t);
    }
    if s != [] && s[0] == '+' {
      // `[1-9]` cannot match the `+`, so the optional `+` must be taken.
      assert !Matches(digits, s);
    }
  }

  /** `[1-9]\d{1,14}` */
  lemma DigitsMeaning(t: string)
    ensures Matches(Cat(Any(NonZeroDigit), Rep(Any(Digit), 1, 14)), t)
            <==> 2 <= |t| <= 15 && AllDigits(t) && t[0] != '0'
  {
    var r := Rep(Any(Digit), 1, 14);
    if Matches(Cat(Any(NonZeroDigit), r), t) {
      var n :| 0 <= n <= |t| && Matches(Any(NonZeroDigit), t[..n]) && Matches(r, t[n..]);
      assert n == 1;
      RepClassMeaning(Digit, 1, 14, t[n..]);
      forall i | 0 <= i < |t| ensures IsDigit(t[i]) {
        if i > 0 { assert t[n..][i - 1] == t[i]; }
      }
    }
    if 2 <= |t| <= 15 && AllDigits(t) && t[0] != '0' {
      RepClassMeaning(Digit, 1, 14, t[1..]);
      assert Matches(Any(NonZeroDigit), t[..1]);
    }
  }

  /** The username regex accepts exactly the plain-words usernames. */
  lemma UsernamePatternMeaning(s: string)
    ensures Matches(UsernamePattern, s) <==> IsUsername(s)
  {
    RepClassMeaning(WordChar, 3, 20, s);
  }

  /** The OTP regex accepts exactly the six-digit codes. */
  lemma OtpPatternMeaning(s: string)
    ensures Matches(OtpPattern, s) <==> IsOtpCode(s)
  {
    RepClassMeaning(Digit, 6, 6, s);
  }

  /** The typed-OTP filter accepts exactly the all-digit strings, the empty
      one included. */
  lemma DigitsPatternMeaning(s: string)
    ensures Matches(DigitsPattern, s) <==> AllDigits(s)
  {
    StarClassMeaning(Digit, s);
  }

  /** An email address has a non-whitespace character, so it never trims to
      the empty string. */
  lemma EmailNotBlank(s: string)
    ensures Matches(EmailPattern, s) ==> |Trim(s)| > 0
  {
    EmailPatternMeaning(s);
    if !IsEmailAddress(s) {
      return;
    }
    var i :| 0 < i < |s| && s[i] == '@' && OnlyAtSignAt(s, i) && NoSpace(s) && DotInside(s[i + 1..]);
    TrimKeepsNonSpace(s, i);
  }

  /** A phone number has a non-whitespace character, so it never trims to the
      empty string. */
  lemma PhoneNotBlank(s: string)
    ensures Matches(PhonePattern, s) ==> |Trim(s)| > 0
  {
    PhonePatternMeaning(s);
    if IsPhoneNumber(s) {
      TrimKeepsNonSpace(s, |s| - 1);
    }
  }
}

=== FILE: regex.dfy ===
/** Just enough of JavaScript regular expressions to write down the patterns
    the pages use, with a denotational meaning: `Matches(r, s)` holds when the
    whole of `s` is in the language of `r` (every page pattern is anchored by
    `^` and `$`). Character classes are the few the pages need. */
module Regex {
  import opened Chars

  datatype Class =
    | Digit          // \d
    | NonZeroDigit   // [1-9]
    | WordChar       // [a-zA-Z0-9_]
    | NotSpaceOrAt   // [^\s@]

  predicate InClass(k: Class, c: char) {
    match k
    case Digit => IsDigit(c)
    case NonZeroDigit => IsNonZeroDigit(c)
    case WordChar => IsWordChar(c)
    case NotSpaceOrAt => IsPlainEmailChar(c)
  }

  predicate AllIn(k: Class, s: string) {
    forall i :: 0 <= i < |s| ==> InClass(k, s[i])
  }

  datatype Regex =
    | Lit(c: char)                           // a literal character
    | Any(k: Class)                          // one character of a class
    | Cat(left: Regex, right: Regex)         // concatenation
    | Opt(body: Regex)                       // r?
    | Star(body: Regex)                      // r*
    | Plus(body: Regex)                      // r+
    | Rep(body: Regex, lo: nat, hi: nat)     // r{lo,hi}

  function Size(r: Regex): nat {
    match r
    case Lit(_) => 1
    case Any(_) => 1
    case Cat(a, b) => Size(a) + Size(b) + 1
    case Opt(a) => Size(a) + 1
    case Star(a) => Size(a) + 2
    case Plus(a) => Size(a) + 1
    case Rep(a, _, hi) => Size(a) + hi + 1
  }

  /** `s` as a whole is in the language of `r`. */
  predicate Matches(r: Regex, s: string)
    decreases Size(r), |s|
  {
    match r
    case Lit(c) => s == [c]
    case Any(k) => |s| == 1 && InClass(k, s[0])
    case Cat(a, b) =>
      exists n :: 0 <= n <= |s| && Matches(a, s[..n]) && Matches(b, s[n..])
    case Opt(a) => s == [] || Matches(a, s)
    case Star(a) => s == [] || Matches(Plus(a), s)
    case Plus(a) =>
      || Matches(a, s)
      || exists n :: 1 <= n < |s| && Matches(a, s[..n]) && Matches(Plus(a), s[n..])
    case Rep(a, lo, hi) =>
      || (lo == 0 && s == [])
      || (0 < hi && lo <= hi &&
          exists n :: 0 <= n <= |s| && Matches(a, s[..n]) && Matches(Rep(a, if lo == 0 then 0 else lo - 1, hi - 1), s[n..]))
  }

  /** `[k]+` matches exactly the non-empty strings of class-`k` characters. */
  lemma {:induction false} PlusClassMeaning(k: Class, s: string)
    ensures Matches(Plus(Any(k)), s) <==> |s| >= 1 && AllIn(k, s)
    decreases |s|
  {
    if Matches(Plus(Any(k)), s) {
      if !Matches(Any(k), s) {
        var n :| 1 <= n < |s| && Matches(Any(k), s[..n]) && Matches(Plus(Any(k)), s[n..]);
        PlusClassMeaning(k, s[n..]);
        assert n == 1;
        forall i | 0 <= i < |s| ensures InClass(k, s[i]) {
          if i > 0 { assert s[n..][i - 1] == s[i]; }
        }
      }
    }
    if |s| >= 1 && AllIn(k, s) {
      if |s| > 1 {
        PlusClassMeaning(k, s[1..]);
        assert Matches(Any(k), s[..1]);
        assert Matches(Plus(Any(k)), s[1..]);
      } else {
        assert Matches(Any(k), s);
      }
    }
  }

  /** `[k]*` matches exactly the strings of class-`k` characters. */
  lemma StarClassMeaning(k: Class, s: string)
    ensures Matches(Star(Any(k)), s) <==> AllIn(k, s)
  {
    PlusClassMeaning(k, s);
  }

  /** `[k]{lo,hi}` matches exactly the strings of class-`k` characters whose
      length lies between `lo` and `hi`. */
  lemma RepClassMeaning(k: Class, lo: nat, hi: nat, s: string)
    ensures Matches(Rep(Any(k), lo, hi), s) <==> lo <= |s| <= hi && AllIn(k, s)
  {
    if Matches(Rep(Any(k), lo, hi), s) {
      RepClassSound(k, lo, hi, s);
    }
    if lo <= |s| <= hi && AllIn(k, s) {
      RepClassComplete(k, lo, hi, s);
    }
  }

  /** Every string `[k]{lo,hi}` matches has between `lo` and `hi`
      characters, all in class `k`. */
  lemma {:induction false} RepClassSound(k: Class, lo: nat, hi: nat, s: string)
    requires Matches(Rep(Any(k), lo, hi), s)
    ensures lo <= |s| <= hi && AllIn(k, s)
    decreases hi
  {
    if lo == 0 && s == [] {
      return;
    }
    var lo' := if lo == 0 then 0 else lo - 1;
    var n :| 0 <= n <= |s| && Matches(Any(k), s[..n]) && Matches(Rep(Any(k), lo', hi - 1), s[n..]);
    assert n == 1;
    RepClassSound(k, lo', hi - 1, s[1..]);
    forall i | 0 <= i < |s| ensures InClass(k, s[i]) {
      if i > 0 { assert s[1..][i - 1] == s[i]; }
    }
  }

  /** `[k]{lo,hi}` matches every string of `lo` to `hi` class-`k`
      characters. */
  lemma {:induction false} RepClassComplete(k: Class, lo: nat, hi: nat, s: string)
    requires lo <= |s| <= hi && AllIn(k, s)
    ensures Matches(Rep(Any(k), lo, hi), s)
    decreases hi
  {
    if s == [] {
      return;
    }
    var lo' := if lo == 0 then 0 else lo - 1;
    assert AllIn(k, s[1..]) by {
      forall i | 0 <= i < |s| - 1 ensures InClass(k, s[1..][i]) {
        assert s[1..][i] == s[i + 1];
      }
    }
    RepClassComplete(k, lo', hi - 1, s[1..]);
    assert Matches(Any(k), s[..1]);
  }

  /** A pattern that starts with a literal character. */
  lemma LitThenMeaning(c: char, r: Regex, t: string)
    ensures Matches(Cat(Lit(c), r), t) <==> |t| >= 1 && t[0] == c && Matches(r, t[1..])
  {
    if |t| >= 1 && t[0] == c && Matches(r, t[1..]) {
      assert t[..1] == [c];
    }
  }

  /** A pattern that starts with `[k]+`. */
  lemma PlusClassThenMeaning(k: Class, r: Regex, t: string)
    ensures Matches(Cat(Plus(Any(k)), r), t) <==>
            exists n :: 1 <= n <= |t| && AllIn(k, t[..n]) && Matches(r, t[n..])
  {
    if Matches(Cat(Plus(Any(k)), r), t) {
      var n :| 0 <= n <= |t| && Matches(Plus(Any(k)), t[..n]) && Matches(r, t[n..]);
      PlusClassMeaning(k, t[..n]);
    }
    if exists n :: 1 <= n <= |t| && AllIn(k, t[..n]) && Matches(r, t[n..]) {
      var n :| 1 <= n <= |t| && AllIn(k, t[..n]) && Matches(r, t[n..]);
      PlusClassMeaning(k, t[..n]);
    }
  }

  /** A pattern that starts with an optional literal character. */
  lemma OptLitThenMeaning(c: char, r: Regex, t: string)
    ensures Matches(Cat(Opt(Lit(c)), r), t) <==>
            Matches(r, t) || (|t| >= 1 && t[0] == c && Matches(r, t[1..]))
  {
    if Matches(Cat(Opt(Lit(c)), r), t) {
      var n :| 0 <= n <= |t| && Matches(Opt(Lit(c)), t[..n]) && Matches(r, t[n..]);
      if n == 0 {
        assert t[n..] == t;
      } else {
        assert |t[..n]| == n;
        assert Matches(Lit(c), t[..n]);
      }
    }
    if Matches(r, t) {
      assert t[..0] == [] && t[0..] == t;
    } else if |t| >= 1 && t[0] == c && Matches(r, t[1..]) {
      assert t[..1] == [c];
      assert Matches(Opt(Lit(c)), t[..1]);
    }
  }
}

=== FILE: rules.dfy ===
/** The per-field validation rules of the two pages. Each rule maps a raw
    field value (and, for the confirmation, the password it must equal) to a
    validation message, `NoError` standing for the page's empty string.
    Where the two pages share the code of a rule it is defined once here. */
module Rules {
  import opened Chars
  import opened Regex
  import opened Patterns

  /** The distinct validation messages of the two pages. */
  datatype FieldError =
    | NoError
    | UsernameTooShort     // both pages
    | UsernameBadFormat    // AuthPage only
    | UsernameTooLong      // SignupPage only
    | UsernameBadChars     // SignupPage only
    | PasswordTooShort
    | PasswordMismatch
    | EmailBadFormat
    | PhoneBadFormat
    | OtpBadFormat

  /** The message text the pages store; a field is flagged exactly when its
      text is non-empty. */
  function Text(e: FieldError): (t: string)
    ensures |t| == 0 <==> e == NoError
  {
    match e
    case NoError => ""
    case UsernameTooShort => "Le nom d'utilisateur doit contenir au moins 3 caractères"
    case UsernameBadFormat => "Format de nom d'utilisateur invalide"
    case UsernameTooLong => "Le nom d'utilisateur ne peut pas dépasser 20 caractères"
    case UsernameBadChars => "Seules les lettres, chiffres et _ sont autorisés"
    case PasswordTooShort => "Le mot de passe doit contenir au moins 6 caractères"
    case PasswordMismatch => "Les mots de passe ne correspondent pas"
    case EmailBadFormat => "Format d'email invalide (ex: user@domain.com)"
    case PhoneBadFormat => "Format de téléphone invalide (ex: +261341234567)"
    case OtpBadFormat => "L'OTP doit contenir exactement 6 chiffres"
  }

  /** AuthPage's username rule: too short below 3 characters, otherwise a
      format error whenever the username regex fails (there is no separate
      length-above-20 branch). */
  function AuthUsernameRule(v: string): (e: FieldError)
    ensures e == NoError || e == UsernameTooShort || e == UsernameBadFormat
    ensures e == NoError <==> v == [] || IsUsername(v)
    ensures e == UsernameTooShort <==> 0 < |v| < 3
    ensures |v| >= 3 ==> (e == UsernameBadFormat <==> !IsUsername(v))
  {
    UsernamePatternMeaning(v);
    if |v| == 0 then NoError
    else if |v| < 3 then UsernameTooShort
    else if !Matches(UsernamePattern, v) then UsernameBadFormat
    else NoError
  }

  /** SignupPage's username rule: too short below 3, too long above 20, and in
      between a character-set error exactly when some character is not a
      letter, digit or underscore. */
  function SignupUsernameRule(v: string): (e: FieldError)
    ensures e == NoError <==> v == [] || IsUsername(v)
    ensures e == UsernameTooShort <==> 0 < |v| < 3
    ensures e == UsernameTooLong <==> |v| > 20
    ensures e == UsernameBadChars <==> 3 <= |v| <= 20 && exists i :: 0 <= i < |v| && !IsWordChar(v[i])
  {
    UsernamePatternMeaning(v);
    if |v| == 0 then NoError
    else if |v| < 3 then UsernameTooShort
    else if |v| > 20 then UsernameTooLong
    else if !Matches(UsernamePattern, v) then UsernameBadChars
    else NoError
  }

  /** Both pages accept the same usernames; they differ only in the message
      for a rejected one (a 21-character name is a format error on AuthPage
      and a too-long error on SignupPage). */
  lemma UsernameRulesAgree(v: string)
    ensures AuthUsernameRule(v) == NoError <==> SignupUsernameRule(v) == NoError
    ensures |v| > 20 ==> AuthUsernameRule(v) == UsernameBadFormat && SignupUsernameRule(v) == UsernameTooLong
  {
  }

  /** Password: too short exactly when it has 1 to 5 characters. */
  function PasswordRule(v: string): (e: FieldError)
    ensures e == NoError || e == PasswordTooShort
    ensures e == PasswordTooShort <==> 0 < |v| < 6
  {
    if |v| == 0 then NoError
    else if |v| < 6 then PasswordTooShort
    else NoError
  }

  /** Confirmation: a mismatch exactly when it is non-empty and differs from
      the password it is compared with. */
  function ConfirmRule(v: string, password: string): (e: FieldError)
    ensures e == NoError || e == PasswordMismatch
    ensures e == PasswordMismatch <==> v != [] && v != password
  {
    if |v| == 0 then NoError
    else if v != password then PasswordMismatch
    else NoError
  }

  /** Email: flagged exactly when non-empty and not an email address. */
  function EmailRule(v: string): (e: FieldError)
    ensures e == NoError || e == EmailBadFormat
    ensures e == EmailBadFormat <==> v != [] && !IsEmailAddress(v)
  {
    EmailPatternMeaning(v);
    if |v| == 0 then NoError
    else if !Matches(EmailPattern, v) then EmailBadFormat
    else NoError
  }

  /** Phone: flagged exactly when non-empty and not a phone number. */
  function PhoneRule(v: string): (e: FieldError)
    ensures e == NoError || e == PhoneBadFormat
    ensures e == PhoneBadFormat <==> v != [] && !IsPhoneNumber(v)
  {
    PhonePatternMeaning(v);
    if |v| == 0 then NoError
    else if !Matches(PhonePattern, v) then PhoneBadFormat
    else NoError
  }

  /** One-time code: flagged exactly when non-empty and not six digits. */
  function OtpRule(v: string): (e: FieldError)
    ensures e == NoError || e == OtpBadFormat
    ensures e == OtpBadFormat <==> v != [] && !IsOtpCode(v)
  {
    OtpPatternMeaning(v);
    if |v| == 0 then NoError
    else if !Matches(OtpPattern, v) then OtpBadFormat
    else NoError
  }
}

=== FILE: signup_page.dfy ===
/** The registration page (`src/pages/SignupPage.jsx`): its form state, its
    field validator, its input handler, its two submit predicates and its
    submit handler, as pure transitions. */
module SignupPage {
  import opened Chars
  import opened Regex
  import opened Patterns
  import opened Rules
  import opened Api

  datatype Field = Username | Email | Phone | Password | PasswordConfirm

  /** `validationErrors`: one message per field. */
  datatype Errors = Errors(username: FieldError, email: FieldError, phone: FieldError,
                           password: FieldError, passwordConfirm: FieldError)
  {
    function Get(f: Field): FieldError {
      match f
      case Username => username
      case Email => email
      case Phone => phone
      case Password => password
      case PasswordConfirm => passwordConfirm
    }

    /** `{...prev, [f]: e}` */
    function Set(f: Field, e: FieldError): (r: Errors)
      ensures r.Get(f) == e
      ensures forall g :: g != f ==> r.Get(g) == Get(g)
    {
      match f
      case Username => this.(username := e)
      case Email => this.(email := e)
      case Phone => this.(phone := e)
      case Password => this.(password := e)
      case PasswordConfirm => this.(passwordConfirm := e)
    }

    /** `Object.values(validationErrors).every(error => error === "")` */
    function AllClear(): (b: bool)
      ensures b <==> forall f :: Get(f) == NoError
    {
      assert Get(Username) == username && Get(Email) == email && Get(Phone) == phone;
      assert Get(Password) == password && Get(PasswordConfirm) == passwordConfirm;
      username == NoError && email == NoError && phone == NoError && password == NoError && passwordConfirm == NoError
    }
  }

  const NoErrors: Errors := Errors(NoError, NoError, NoError, NoError, NoError)

  datatype State = State(
    username: string,
    email: string,
    phone: string,
    password: string,
    passwordConfirm: string,
    error: string,            // the banner
    loading: bool,
    errors: Errors)

  /** The state when the page mounts. */
  const Initial: State := State("", "", "", "", "", "", false, NoErrors)

  /** The stored value of an input field. */
  function Value(s: State, f: Field): string {
    match f
    case Username => s.username
    case Email => s.email
    case Phone => s.phone
    case Password => s.password
    case PasswordConfirm => s.passwordConfirm
  }

  const FixErrorsMessage: string := "Veuillez corriger les erreurs avant de continuer."
  const SignupFallback: string := "Une erreur est survenue lors de l'inscription."

  /** Where a successful registration navigates: the login page. */
  const LoginRoute: string := "/"

  /** `validateField(field, value)`, with the `password` its closure reads
      passed in explicitly. */
  function Validate(f: Field, v: string, password: string): (e: FieldError)
    ensures v == [] ==> e == NoError
    ensures f == Username ==> e == SignupUsernameRule(v)
    ensures f == Email ==> e == EmailRule(v)
    ensures f == Phone ==> e == PhoneRule(v)
    ensures f == Password ==> e == PasswordRule(v)
    ensures f == PasswordConfirm ==> e == ConfirmRule(v, password)
  {
    match f
    case Username => SignupUsernameRule(v)
    case Email => EmailRule(v)
    case Phone => PhoneRule(v)
    case Password => PasswordRule(v)
    case PasswordConfirm => ConfirmRule(v, password)
  }

  /** No field is ever flagged while it is empty. */
  lemma EmptyIsNeverFlagged(f: Field, password: string)
    ensures Validate(f, [], password) == NoError
  {
  }

  /** `handleInputChange(field, value)`. Every validation inside the event
      sees the state before the event: a password change re-checks a
      non-empty confirmation against the password being replaced. */
  function InputChange(s: State, f: Field, v: string): (r: State)
    ensures Value(r, f) == v
    ensures forall g :: g != f ==> Value(r, g) == Value(s, g)
    ensures r.error == s.error && r.loading == s.loading
    ensures r.errors.Get(f) == Validate(f, v, s.password)
    ensures f == Password && s.passwordConfirm != [] ==>
              r.errors.passwordConfirm == ConfirmRule(s.passwordConfirm, s.password)
    ensures forall g :: g != f && !(f == Password && g == PasswordConfirm && s.passwordConfirm != []) ==>
              r.errors.Get(g) == s.errors.Get(g)
  {
    var revalidated :=
      if f == Password && s.passwordConfirm != [] then
        s.errors.Set(PasswordConfirm, Validate(PasswordConfirm, s.passwordConfirm, s.password))
      else s.errors;
    var errors := revalidated.Set(f, Validate(f, v, s.password));
    match f
    case Username => s.(username := v, errors := errors)
    case Email => s.(email := v, errors := errors)
    case Phone => s.(phone := v, errors := errors)
    case Password => s.(password := v, errors := errors)
    case PasswordConfirm => s.(passwordConfirm := v, errors := errors)
  }

  /** `handleInputChange` as its comment intends it: a password change
      re-checks a non-empty confirmation against the NEW password. The
      corrected counterpart of `InputChange`. */
  function InputChangeIntended(s: State, f: Field, v: string): (r: State)
    ensures r.(errors := s.errors) == InputChange(s, f, v).(errors := s.errors)
    ensures forall g :: g != PasswordConfirm ==> r.errors.Get(g) == InputChange(s, f, v).errors.Get(g)
    ensures f == Password && s.passwordConfirm != [] ==>
              r.errors.passwordConfirm == ConfirmRule(s.passwordConfirm, v)
    ensures !(f == Password && s.passwordConfirm != []) ==> r == InputChange(s, f, v)
    ensures ConfirmUpToDate(s) ==> ConfirmUpToDate(r)
  {
    var revalidated :=
      if f == Password && s.passwordConfirm != [] then
        s.errors.Set(PasswordConfirm, Validate(PasswordConfirm, s.passwordConfirm, v))
      else s.errors;
    var errors := revalidated.Set(f, Validate(f, v, s.password));
    match f
    case Username => s.(username := v, errors := errors)
    case Email => s.(email := v, errors := errors)
    case Phone => s.(phone := v, errors := errors)
    case Password => s.(password := v, errors := errors)
    case PasswordConfirm => s.(passwordConfirm := v, errors := errors)
  }

  /** The confirmation's message is the one its value and the current
      password call for. */
  predicate ConfirmUpToDate(s: State) {
    s.errors.passwordConfirm == ConfirmRule(s.passwordConfirm, s.password)
  }

  /** The messages of the username, email, phone and password fields are the
      ones their current values call for. */
  predicate MessagesUpToDate(s: State) {
    && s.errors.username == SignupUsernameRule(s.username)
    && s.errors.email == EmailRule(s.email)
    && s.errors.phone == PhoneRule(s.phone)
    && s.errors.password == PasswordRule(s.password)
  }

  /** `isFormValid`, the enabling condition of the submit button: a
      username, an email and a phone that are not blank, a password of at
      least 6 characters and a matching confirmation. */
  function IsFormValid(s: State): (b: bool)
    ensures b <==>
              && !AllSpace(s.username)
              && !AllSpace(s.email)
              && !AllSpace(s.phone)
              && |s.password| >= 6
              && s.password == s.passwordConfirm
  {
    TrimEmptyIffAllSpace(s.username);
    TrimEmptyIffAllSpace(s.email);
    TrimEmptyIffAllSpace(s.phone);
    && |Trim(s.username)| > 0
    && |Trim(s.email)| > 0
    && |Trim(s.phone)| > 0
    && |s.password| >= 6
    && s.password == s.passwordConfirm
  }

  /** `isFormValidWithValidation()`, the gate of `handleSignup`: it implies
      `isFormValid`, so the handler never submits a form whose button is
      disabled. */
  function IsFormValidWithValidation(s: State): (b: bool)
    ensures b ==> IsFormValid(s)
    ensures b ==> IsEmailAddress(s.email) && IsPhoneNumber(s.phone)
    ensures b ==> |s.password| >= 6 && s.password == s.passwordConfirm
    ensures b ==> forall f :: s.errors.Get(f) == NoError
  {
    EmailNotBlank(s.email);
    EmailPatternMeaning(s.email);
    PhoneNotBlank(s.phone);
    PhonePatternMeaning(s.phone);
    && |Trim(s.username)| >= 3
    && Matches(EmailPattern, s.email)
    && Matches(PhonePattern, s.phone)
    && |s.password| >= 6
    && s.password == s.passwordConfirm
    && s.errors.AllClear()
  }

  /** The register request: the confirmation is not sent. */
  datatype Request = Register(username: string, email: string, phone: string, password: string)

  /** What `handleSignup` leaves behind: the state once it has completed, the
      request it issued and the route it navigated to. */
  datatype Outcome = Outcome(state: State, request: Option<Request>, navigateTo: Option<string>)

  /** `handleSignup`. */
  function HandleSignup(s: State, reply: Reply): (o: Outcome)
    ensures o.request.Some? <==> IsFormValidWithValidation(s)
    ensures !IsFormValidWithValidation(s) ==> o.state == s.(error := FixErrorsMessage) && o.navigateTo == None
    ensures IsFormValidWithValidation(s) ==>
              o.request == Some(Register(s.username, s.email, s.phone, s.password)) && !o.state.loading
    ensures IsFormValidWithValidation(s) && reply.Ok? ==> o.navigateTo == Some(LoginRoute) && o.state.error == ""
    ensures reply.Err? ==> o.navigateTo == None
    ensures IsFormValidWithValidation(s) && reply.Err? ==> o.state.error == ServerText(reply.body.error, SignupFallback)
    ensures o.state.(error := s.error, loading := s.loading) == s
  {
    if !IsFormValidWithValidation(s) then
      Outcome(s.(error := FixErrorsMessage), None, None)
    else
      var request := Some(Register(s.username, s.email, s.phone, s.password));
      match reply
      case Ok(_) => Outcome(s.(error := "", loading := false), request, Some(LoginRoute))
      case Err(body) => Outcome(s.(error := ServerText(body.error, SignupFallback), loading := false), request, None)
  }

  /** When every message is current, the submit gate holds exactly when the
      form is valid in plain words: a username, an email address, a phone
      number, a password of at least 6 characters and a matching
      confirmation. */
  lemma GateMeansValidForm(s: State)
    requires MessagesUpToDate(s) && ConfirmUpToDate(s)
    ensures IsFormValidWithValidation(s) <==>
              && IsUsername(s.username)
              && IsEmailAddress(s.email)
              && IsPhoneNumber(s.phone)
              && |s.password| >= 6
              && s.password == s.passwordConfirm
  {
    EmailPatternMeaning(s.email);
    PhonePatternMeaning(s.phone);
    if IsUsername(s.username) {
      TrimWordChars(s.username);
    }
    if IsFormValidWithValidation(s) {
      assert s.errors.Get(Username) == NoError;
      TrimEmptyIffAllSpace(s.username);
    }
    if && IsUsername(s.username) && IsEmailAddress(s.email) && IsPhoneNumber(s.phone)
       && |s.password| >= 6 && s.password == s.passwordConfirm {
      assert s.errors.AllClear();
    }
  }

  /** Every input event keeps the username, email, phone and password
      messages current. */
  lemma {:induction false} InputsKeepMessagesUpToDate(s: State, steps: seq<(Field, string)>)
    requires MessagesUpToDate(s)
    ensures MessagesUpToDate(ApplyInputs(s, steps))
    decreases |steps|
  {
    if steps != [] {
      InputKeepsMessagesUpToDate(s, steps[0].0, steps[0].1);
      InputsKeepMessagesUpToDate(InputChange(s, steps[0].0, steps[0].1), steps[1..]);
    }
  }

  lemma InputKeepsMessagesUpToDate(s: State, f: Field, v: string)
    requires MessagesUpToDate(s)
    ensures MessagesUpToDate(InputChange(s, f, v))
  {
    var r := InputChange(s, f, v);
    assert r.errors.username == SignupUsernameRule(r.username) by {
      if f != Username { assert r.errors.Get(Username) == s.errors.Get(Username); }
    }
    assert r.errors.email == EmailRule(r.email) by {
      if f != Email { assert r.errors.Get(Email) == s.errors.Get(Email); }
    }
    assert r.errors.phone == PhoneRule(r.phone) by {
      if f != Phone { assert r.errors.Get(Phone) == s.errors.Get(Phone); }
    }
    assert r.errors.password == PasswordRule(r.password) by {
      if f != Password { assert r.errors.Get(Password) == s.errors.Get(Password); }
    }
  }

  /** A sequence of input events. */
  function ApplyInputs(s: State, steps: seq<(Field, string)>): State
    decreases |steps|
  {
    if steps == [] then s else ApplyInputs(InputChange(s, steps[0].0, steps[0].1), steps[1..])
  }

  /** The stale confirmation blocks registration. With a username, an email
      address and a phone number typed, then a password `p` of at least 7
      characters, a confirmation one character shorter, and then the
      password's last character deleted, the form is valid and its button
      enabled, yet the mismatch message stays and `handleSignup` sends
      nothing. The same events under the intended re-check register. */
  lemma StaleConfirmBlocksSignup(u: string, e: string, ph: string, p: string, reply: Reply)
    requires IsUsername(u) && IsEmailAddress(e) && IsPhoneNumber(ph) && |p| >= 7
    ensures var q := p[..|p| - 1];
            var s := InputChange(InputChange(InputChange(InputChange(InputChange(InputChange(Initial,
                       Username, u), Email, e), Phone, ph), Password, p), PasswordConfirm, q), Password, q);
            var t := InputChangeIntended(InputChangeIntended(InputChangeIntended(InputChangeIntended(
                       InputChangeIntended(InputChangeIntended(Initial,
                       Username, u), Email, e), Phone, ph), Password, p), PasswordConfirm, q), Password, q);
            && s.password == s.passwordConfirm
            && s.errors.passwordConfirm == PasswordMismatch
            && !ConfirmUpToDate(s)
            && IsFormValid(s)
            && HandleSignup(s, reply).request == None
            && HandleSignup(t, reply).request == Some(Register(u, e, ph, q))
  {
    var q := p[..|p| - 1];
    var s := StaleFill(u, e, ph, p);
    var t := IntendedFill(u, e, ph, p);
    assert !IsFormValidWithValidation(s) by { assert s.errors.Get(PasswordConfirm) != NoError; }
    GateMeansValidForm(t);
  }

  /** The page's own input events of `StaleConfirmBlocksSignup`. */
  function StaleFill(u: string, e: string, ph: string, p: string): (s: State)
    requires |p| >= 7
    ensures s == InputChange(InputChange(InputChange(InputChange(InputChange(InputChange(Initial,
                   Username, u), Email, e), Phone, ph), Password, p), PasswordConfirm, p[..|p| - 1]), Password, p[..|p| - 1])
    ensures s.username == u && s.email == e && s.phone == ph
    ensures s.password == p[..|p| - 1] && s.passwordConfirm == p[..|p| - 1]
    ensures s.errors.passwordConfirm == PasswordMismatch
  {
    var q := p[..|p| - 1];
    assert q != p by { assert |q| != |p|; }
    var s1 := InputChange(Initial, Username, u);
    var s2 := InputChange(s1, Email, e);
    var s3 := InputChange(s2, Phone, ph);
    var s4 := InputChange(s3, Password, p);
    var s5 := InputChange(s4, PasswordConfirm, q);
    assert s5.errors.passwordConfirm == PasswordMismatch;
    InputChange(s5, Password, q)
  }

  /** The same input events under the intended re-check. */
  function IntendedFill(u: string, e: string, ph: string, p: string): (t: State)
    requires |p| >= 7
    ensures t == InputChangeIntended(InputChangeIntended(InputChangeIntended(InputChangeIntended(
                   InputChangeIntended(InputChangeIntended(Initial,
                   Username, u), Email, e), Phone, ph), Password, p), PasswordConfirm, p[..|p| - 1]), Password, p[..|p| - 1])
    ensures t.username == u && t.email == e && t.phone == ph
    ensures t.password == p[..|p| - 1] && t.passwordConfirm == p[..|p| - 1]
    ensures MessagesUpToDate(t) && ConfirmUpToDate(t)
  {
    var q := p[..|p| - 1];
    var t1 := InputChangeIntended(Initial, Username, u);
    var t2 := InputChangeIntended(t1, Email, e);
    var t3 := InputChangeIntended(t2, Phone, ph);
    var t4 := InputChangeIntended(t3, Password, p);
    var t5 := InputChangeIntended(t4, PasswordConfirm, q);
    IntendedInputKeepsMessagesUpToDate(Initial, Username, u);
    IntendedInputKeepsMessagesUpToDate(t1, Email, e);
    IntendedInputKeepsMessagesUpToDate(t2, Phone, ph);
    IntendedInputKeepsMessagesUpToDate(t3, Password, p);
    IntendedInputKeepsMessagesUpToDate(t4, PasswordConfirm, q);
    IntendedInputKeepsMessagesUpToDate(t5, Password, q);
    InputChangeIntended(t5, Password, q)
  }

  /** The intended input event keeps the username, email, phone and
      password messages current, as the page's own does. */
  lemma IntendedInputKeepsMessagesUpToDate(s: State, f: Field, v: string)
    requires MessagesUpToDate(s)
    ensures MessagesUpToDate(InputChangeIntended(s, f, v))
  {
    InputKeepsMessagesUpToDate(s, f, v);
    var r := InputChangeIntended(s, f, v);
    var r' := InputChange(s, f, v);
    assert r.username == r'.username && r.email == r'.email;
    assert r.phone == r'.phone && r.password == r'.password;
    assert r.errors.Get(Username) == r'.errors.Get(Username);
    assert r.errors.Get(Email) == r'.errors.Get(Email);
    assert r.errors.Get(Phone) == r'.errors.Get(Phone);
    assert r.errors.Get(Password) == r'.errors.Get(Password);
  }

  /** From the state the page mounts with, every sequence of input events
      keeps the four messages current. */
  lemma {:induction false} MessagesStayCurrent(steps: seq<(Field, string)>)
    ensures MessagesUpToDate(ApplyInputs(Initial, steps))
  {
    InputsKeepMessagesUpToDate(Initial, steps);
  }

  /** With the intended re-check, the confirmation's message stays current
      through every sequence of input events. */
  lemma {:induction false} IntendedInputKeepsConfirmUpToDate(s: State, steps: seq<(Field, string)>)
    requires ConfirmUpToDate(s)
    ensures ConfirmUpToDate(ApplyIntended(s, steps))
    decreases |steps|
  {
    if steps != [] {
      IntendedInputKeepsConfirmUpToDate(InputChangeIntended(s, steps[0].0, steps[0].1), steps[1..]);
    }
  }

  /** A sequence of input events under the intended `handleInputChange`. */
  function ApplyIntended(s: State, steps: seq<(Field, string)>): State
    decreases |steps|
  {
    if steps == [] then s else ApplyIntended(InputChangeIntended(s, steps[0].0, steps[0].1), steps[1..])
  }
}
